=== FILE: README.md ===
# Single-SP communication core, modelled in Dafny

This project models the core of `gateway-sp-comms/src/single_sp.rs`, the
management gateway's connection to one service processor (SP). It covers:

- **The RPC engine of `Inner`.** `rpc_call` allocates the next message id and
  serialises the request once, carrying as much trailing data as fits. It
  allows `max_attempts_per_rpc` attempts, a budget replaced by the reset
  budget (enough attempts to span the 30-second reset allowance) when the SP
  itself is being reset. It makes attempts with the same bytes until one ends
  the RPC. `rpc_call_one_attempt` is the state machine that
  classifies each message arriving during an attempt:
  - host-phase-2 requests and serial-console data are handled without
    resending and without restarting the timer;
  - an answer to another request, or the timer firing, ends the attempt with
    nothing;
  - `Busy` causes a resend;
  - any other error answer fails the RPC;
  - any other answer is the RPC's answer.
- **The session state `Inner` keeps between RPCs.** This is the message id,
  the console channel and its connection key, and the most recent
  host-phase-2 request. It includes:
  - `forward_serial_console`, with the channel present, full or closed;
  - `handle_incoming_message`;
  - `attach_serial_console` and `detach_serial_console`;
  - the connection-key check in the detach branch of `handle_command`.
- **The attached serial console.**
  - The bounded channel, depth 32.
  - The sender's `write`, which packs as many bytes as fit into each
    request. It checks the SP's acknowledged offset against the window
    `[tx_offset, tx_offset + data_sent]`, rewinds over what the SP did not
    accept, and advances `tx_offset`.
  - The receiver's `recv`, which tracks `rx_offset` and warns about gaps.
- **Paginated TLV fetches** (`get_paginated_tlv_data`), with its four
  consistency checks and the 1024-item cap. The `parse_tag_value` step of the
  four paginated requests (inventory, component details, bulk ignition state,
  bulk link events) is modelled with its length and UTF-8 checks.
- **The request wrappers with logic of their own:**
  - the result mapping of `reset_component_trigger`;
  - the size check of `set_ipcc_key_lookup_value`;
  - the argument checks of `start_update`;
  - the `CursorExt` helpers.

The UDP socket is replaced by the traffic it would deliver. This is a
sequence of inbound messages in which a `Timeout` entry, or the end of the
sequence, stands for the attempt's timer firing. A log records the datagrams
sent, and a set of send-call indices says which sends fail. Stateful parts
(`Inner`, the socket, the console channel and its two halves) are classes
whose methods are proved against pure specification functions:

- `Attempt` and `RpcFrom` / `Attempts` for the RPC engine;
- `Absorb` / `AbsorbAll` for the session;
- `WriteFrom` for the console sender;
- `FetchFrom` for pagination.

The lemmas about those functions state the properties the code is written
to have. Every method of `Inner` that changes the session keeps the
invariant `Inner.Valid`: a channel the engine holds has its sender open,
because the code drops the sender only when it lets go of the channel.

Modules: `Types` (shared vocabulary), `Cursors`, `Tlv`, `Pagination`,
`SerialConsole`, `Engine` (the `Inner` class) and `Commands`.

## Model

| member | source | states |
|---|---|---|
| Types.WrappingAdd32 | gateway-sp-comms/src/single_sp.rs:1753 | `message_id += 1` on `u32`: the plain sum when it fits, otherwise the sum less 2^32, so `0xFFFF_FFFF` is followed by 0 |
| Types.WrappingAdd64 | gateway-sp-comms/src/single_sp.rs:1287 | `u64` addition of the console offsets: the plain sum below 2^64, and the sum less 2^64 once it reaches 2^64 |
| Types.Expect | gateway-sp-comms/src/single_sp.rs:2013 | an `expect_*_ack` succeeds exactly when the response is the expected kind, and otherwise reports `BadResponseType` naming the expected and received kinds |
| Cursors.RemainingSlice | gateway-sp-comms/src/single_sp.rs:2044-2048 | `remaining_slice` is the data from the position on, and empty once the position is at or past the end |
| Cursors.IsEmpty | gateway-sp-comms/src/single_sp.rs:2040-2042 | `is_empty` holds exactly when nothing remains to be read |
| Cursors.Seek | gateway-sp-comms/src/single_sp.rs:1216-1220 | a relative seek moves the position by exactly `delta`, never before the start (the code unwraps it), and keeps the buffer |
| Tlv.SaturatingAdd | gateway-sp-comms/src/single_sp.rs:899 | `usize::saturating_add` is at least each operand, is the exact sum when that fits, and is `usize::MAX` when it does not |
| Tlv.InventoryTagValue | gateway-sp-comms/src/single_sp.rs:880-929 | unknown tags are skipped; a header that fails to deserialise is a `TlvDeserialize` error; a length mismatch is reported exactly when the two header lengths do not add up (saturating) to the bytes that follow; an entry is produced exactly when the lengths agree and both strings are UTF-8; the entry splits the bytes at `device_len` and copies the header's component, capabilities and presence |
| Tlv.ComponentDetailsTagValue | gateway-sp-comms/src/single_sp.rs:950-1013 | unknown tags are skipped; a port status is accepted whatever follows it; a measurement length mismatch is reported exactly when the name does not fill the bytes after the header; a measurement is accepted exactly when its header deserialises, its name fills the bytes after the header and is UTF-8, and it then carries that name and the header's kind and value; a header that fails to deserialise is a `TlvDeserialize` error naming the tag, and a non-UTF-8 name is reported as such |
| Tlv.SingleRecordTagValue | gateway-sp-comms/src/single_sp.rs:1033-1112 | the ignition-state and link-event parsers skip other tags and accept their own tag exactly when its record deserialises, yielding `Some` of that record; otherwise the error is `TlvDeserialize` naming the tag and the codec's error |
| Pagination.DecodePage | gateway-sp-comms/src/single_sp.rs:501-524 | decoding a page only appends to the entries collected and never goes past the total |
| Pagination.DecodePageAccepts | gateway-sp-comms/src/single_sp.rs:501-524 | a page is accepted exactly when every chunk decodes and parses and no chunk arrives once `total` entries are held; the page then appends exactly its known items, in order |
| Pagination.PeelChunk | gateway-sp-comms/src/single_sp.rs:501-524 | taking one parsed chunk off a page's front: the page is clean and fits exactly when the rest does, and its known items are that chunk's item followed by the rest's |
| Pagination.FetchFrom | gateway-sp-comms/src/single_sp.rs:452-537 | a fetch keeps what it collected; a fetch under way ends with exactly the total; from the start, success means the first page was at offset 0 with a total within the cap, and that total is the number of items returned |
| Pagination.Fetch | gateway-sp-comms/src/single_sp.rs:452-537 | a fetch succeeds only when the first page was at offset 0, with a total within the cap that is the number of items returned; a failing first request, or a first page at another offset, fails the fetch |
| Pagination.GetPaginatedTlvData | gateway-sp-comms/src/single_sp.rs:452-537 | the loop computes the fetch, and a successful fetch returns exactly the first page's total number of items, which is at most 1024 |
| Pagination.FetchRejectsTooManyItems | gateway-sp-comms/src/single_sp.rs:490-494 | a first page announcing more than `TLV_RPC_TOTAL_ITEMS_DOS_LIMIT` (1024) fails the fetch with "too many items" |
| Pagination.FetchRejectsInconsistentPage | gateway-sp-comms/src/single_sp.rs:477-533 | once the total is known, a page at another offset, with another total, or adding no entry, fails the fetch with a pagination error |
| Pagination.FetchFromHonestSp | gateway-sp-comms/src/single_sp.rs:452-537 | against an SP that serves a list of at most 1024 items consistently, however it splits the list into pages, the fetch returns exactly that list |
| Pagination.HonestFetchContinues | gateway-sp-comms/src/single_sp.rs:462-535 | from any prefix of an honestly served list, the remaining requests complete the list |
| SerialConsole.ConsoleChannel.constructor | gateway-sp-comms/src/single_sp.rs:2001 | a new channel has the given depth, is empty, and has both ends open |
| SerialConsole.ConsoleChannel.TrySend | gateway-sp-comms/src/single_sp.rs:1955-1968 | `try_send` never waits: it is refused as `Closed` when the receiver is gone, refused as `Full` at capacity, and otherwise appends the item |
| SerialConsole.ConsoleChannel.Recv | gateway-sp-comms/src/single_sp.rs:1281 | the channel hands out the oldest buffered chunk, or `None` once it is drained and the sender is gone |
| SerialConsole.ConsoleChannel.DropSender | gateway-sp-comms/src/single_sp.rs:2014 | dropping the sender keeps the buffered data receivable |
| SerialConsole.ConsoleChannel.DropReceiver | gateway-sp-comms/src/single_sp.rs:1957-1958 | dropping the receiver makes later sends come back `Closed` |
| SerialConsole.CheckAck | gateway-sp-comms/src/single_sp.rs:1203-1211 | an acknowledged offset `n` is rejected with `BogusSerialConsoleState` exactly when `n < tx_offset` or `n - tx_offset > data_sent`; otherwise the bytes accepted are `n - tx_offset`, at most `data_sent` |
| SerialConsole.WriteFrom | gateway-sp-comms/src/single_sp.rs:1185-1227 | a write sends at most one packet per round trip |
| SerialConsole.WriteAdvances | gateway-sp-comms/src/single_sp.rs:1209-1226 | `tx_offset` only moves forward and never past the data's end; the write succeeds exactly when `tx_offset` has grown by the whole length of the data |
| SerialConsole.WriteCarriesStream | gateway-sp-comms/src/single_sp.rs:1187-1222 | every packet carries, at the offset it names, the stream's own bytes: the rewind makes unaccepted bytes go out again from the acknowledged offset |
| SerialConsole.WriteAcksInWindow | gateway-sp-comms/src/single_sp.rs:1196-1211 | every packet except a failing last one was answered with an acknowledgement inside its window |
| SerialConsole.WriteResumesAtAck | gateway-sp-comms/src/single_sp.rs:1190-1225 | the first packet claims the sender's offset, and each later packet claims the offset acknowledged for the one before it |
| SerialConsole.WriteEndsAtLastRound | gateway-sp-comms/src/single_sp.rs:1187-1227 | how a write ends is decided by its last round trip: a failure is that round's RPC error or a bad acknowledgement, and the final offset is the last acknowledged one |
| SerialConsole.WriteSoFarAccepted | gateway-sp-comms/src/single_sp.rs:1213-1225 | an acknowledged round trip moves the cursor to the acknowledged position and the offset to the acknowledged offset |
| SerialConsole.WriteSoFarFailed | gateway-sp-comms/src/single_sp.rs:1198-1211 | a failing RPC or a bad acknowledgement ends the write with that error, the offset unchanged |
| SerialConsole.WriteSoFarEnds | gateway-sp-comms/src/single_sp.rs:1187-1227 | the write is done once no data remains |
| SerialConsole.ConsoleSender.constructor | gateway-sp-comms/src/single_sp.rs:1162-1166 | the sending half starts at offset 0 under the attachment's key |
| SerialConsole.ConsoleSender.Write | gateway-sp-comms/src/single_sp.rs:1185-1227 | the loop's outcome, its final `tx_offset` and the packets it sends are those of `WriteFrom` |
| SerialConsole.ConsoleReceiver.constructor | gateway-sp-comms/src/single_sp.rs:1167-1171 | the receiving half starts at offset 0 |
| SerialConsole.ConsoleReceiver.Recv | gateway-sp-comms/src/single_sp.rs:1280-1290 | `recv` returns the chunk's data unchanged; a gap is flagged exactly when the chunk's offset differs from `rx_offset`; `rx_offset` becomes the chunk's end; a closed, drained channel gives `None` and changes nothing |
| SerialConsole.Split | gateway-sp-comms/src/single_sp.rs:1158-1173 | both halves start at offset 0, the sender keeping the key and the receiver the channel |
| SerialConsole.NextRxOffset | gateway-sp-comms/src/single_sp.rs:1287 | the offset expected after a chunk is the one just past its last byte, wrapping at 2^64 |
| SerialConsole.GapReports | gateway-sp-comms/src/single_sp.rs:1280-1290 | a receiver reports one gap verdict per chunk |
| SerialConsole.NoGapIffContiguous | gateway-sp-comms/src/single_sp.rs:1280-1290 | while the stream stays below 2^64, a run of chunks raises no gap warning exactly when each chunk starts where the stream so far ends |
| Engine.Classify | gateway-sp-comms/src/single_sp.rs:1863-1924 | only out-of-band messages and `Busy` keep an attempt going, and only `Busy` resends; a timer expiry or an answer to another message id ends the attempt with nothing; an error answer other than `Busy` fails it; any other answer to its own id is the result |
| Engine.Attempt | gateway-sp-comms/src/single_sp.rs:1822-1926 | an attempt consumes no more traffic than there is, and a failed send means at least one send call |
| Engine.OutOfBandOf | gateway-sp-comms/src/single_sp.rs:1863-1881 | the messages an attempt handles on the side are all host-phase-2 requests or console data |
| Engine.AttemptSendsOncePlusBusy | gateway-sp-comms/src/single_sp.rs:1848-1856 | an attempt sends once, plus once after every `Busy`; out-of-band messages never cause a resend |
| Engine.AttemptHandlesOutOfBand | gateway-sp-comms/src/single_sp.rs:1863-1881 | the out-of-band messages an attempt handles are exactly those among the traffic it consumed, in order |
| Engine.AttemptAnswersOwnRequest | gateway-sp-comms/src/single_sp.rs:1883-1924 | an answer, or an SP error, comes only from the last message consumed, and that message answers the attempt's own message id |
| Engine.OutOfBandOnlyNeverResends | gateway-sp-comms/src/single_sp.rs:1863-1881 | after only out-of-band messages, an attempt that is not resending consumes them all and sends nothing |
| Engine.OutOfBandThenTimeout | gateway-sp-comms/src/single_sp.rs:1836-1862 | the timer is not restarted by out-of-band messages: when it fires after them, the attempt ends with nothing |
| Engine.OutOfBandStreamTimesOut | gateway-sp-comms/src/single_sp.rs:2104-2165 | a steady stream of host-phase-2 requests does not keep an attempt alive: one send, every message handled, and the attempt ends with nothing |
| Engine.AttemptNeverExhausts | gateway-sp-comms/src/single_sp.rs:1822-1926 | a single attempt never reports exhaustion itself |
| Engine.AttemptStopsAtFailedSend | gateway-sp-comms/src/single_sp.rs:1849-1851 | a send that fails ends the attempt with `SendFailed`, and every earlier send call of the attempt went through |
| Engine.CalcResetAttempts | gateway-sp-comms/src/single_sp.rs:1788-1792 | the reset budget is the least number of attempts whose timeouts (a zero timeout counted as 1 ms) cover 30 s, and is at least 1 |
| Engine.RpcFrom | gateway-sp-comms/src/single_sp.rs:1803-1819 | the attempt loop of `rpc_call`, with `remaining` attempts left, starts at most `remaining` more attempts |
| Engine.Attempts | gateway-sp-comms/src/single_sp.rs:1803-1819 | a whole RPC starts at most its budget of attempts, and at least one when the budget is nonzero; it reports `ExhaustedNumAttempts` only after the whole budget, naming the configured count |
| Engine.MaxAttempts | gateway-sp-comms/src/single_sp.rs:1793-1801 | `ResetTrigger` and `ResetComponentTrigger` of the SP itself get the reset budget; every other request gets `max_attempts_per_rpc` |
| Engine.ExhaustedOnlyAfterWholeBudget | gateway-sp-comms/src/single_sp.rs:1803-1819 | an RPC reports `ExhaustedNumAttempts` only once every attempt of its budget was made, and then names `max_attempts_per_rpc`; with a nonzero budget it makes at least one attempt |
| Engine.SilentSpExhaustsBudget | gateway-sp-comms/src/single_sp.rs:1803-1819 | against an SP that never answers, the RPC makes its whole budget of attempts, one send and one timer expiry each, then gives up |
| Engine.ResetOfSilentSpReportsConfiguredBudget | gateway-sp-comms/src/single_sp.rs:1788-1819 | a reset sent to a silent SP is retried for the whole reset allowance, yet the error names `max_attempts_per_rpc`, not the number of attempts made |
| Engine.RpcPendingStep | gateway-sp-comms/src/single_sp.rs:1803-1816 | an attempt that ends with nothing leaves the RPC pending with one attempt fewer, its traffic, sends and handled messages added |
| Engine.RpcPendingEnds | gateway-sp-comms/src/single_sp.rs:1813-1816 | an attempt that ends with an answer or an error ends the RPC with that outcome |
| Engine.Absorb | gateway-sp-comms/src/single_sp.rs:1716-1736 | a host-phase-2 request is recorded; console data is appended only while a client is attached, listening and not full; a full buffer keeps its contents and loses only the new chunk; a closed receiver detaches the session; without a client nothing changes; a response outside an RPC changes nothing |
| Engine.AbsorbAll | gateway-sp-comms/src/single_sp.rs:1716-1736 | handling a run of messages in turn never attaches a client; while the client stays attached its buffer only grows; without a host-phase-2 request among them the recorded one stays |
| Engine.AbsorbAllIgnoresClosedChannel | gateway-sp-comms/src/single_sp.rs:1943-1970 | without an attached client, no out-of-band message attaches one, and the channel's parameters play no part |
| Engine.AbsorbAllAppend | gateway-sp-comms/src/single_sp.rs:1716-1736 | handling two runs of messages one after the other is the same as handling them together |
| Engine.AbsorbAllThen | gateway-sp-comms/src/single_sp.rs:1716-1736 | a session that handled some messages handles more as if it had seen them all, provided the channel is the same or gone |
| Engine.Copies | gateway-sp-comms/src/single_sp.rs:1849-1851 | every resend puts the same serialised bytes on the wire |
| Engine.AttemptMovesSession | gateway-sp-comms/src/single_sp.rs:1803-1816 | each attempt moves the RPC's state on by the traffic it consumed, the sends it made and the messages it handled |
| Engine.DeliveredAfter | gateway-sp-comms/src/single_sp.rs:1849-1851 | the datagrams that actually went out add up over attempts |
| Engine.AttemptFrom | gateway-sp-comms/src/single_sp.rs:1822-1926 | the attempt loop with its counters carried along consumes at least what was carried in and at most what was available |
| Engine.AttemptFromIsAttempt | gateway-sp-comms/src/single_sp.rs:1822-1926 | the attempt loop with its counters is the same attempt, shifted by what was carried in |
| Engine.AttemptFromSend | gateway-sp-comms/src/single_sp.rs:1849-1852 | sending within an attempt either fails it with `SendFailed` or goes on to receive |
| Engine.AttemptFromReceive | gateway-sp-comms/src/single_sp.rs:1858-1924 | receiving within an attempt ends it on a timer expiry or a deciding message, and otherwise goes on |
| Engine.Serialize | gateway-sp-comms/src/single_sp.rs:1762-1784 | without trailing data the request is encoded alone; with trailing data a cursor is handed back |
| Engine.SerializeConsumesTrailing | gateway-sp-comms/src/single_sp.rs:1762-1784 | the trailing bytes a request carries are exactly those the cursor moves past: no more than fit, none lost or sent twice, and all of them when they fit |
| Engine.SocketHandle.constructor | gateway-sp-comms/src/single_sp.rs:1345-1350 | a socket starts with nothing sent |
| Engine.SocketHandle.Send | gateway-sp-comms/src/single_sp.rs:1348 | every send call is counted; a failing one sends nothing and reports `SendFailed`, any other appends the datagram |
| Engine.SocketHandle.Recv | gateway-sp-comms/src/single_sp.rs:1858-1861 | receiving yields the next inbound message, or the timer firing when nothing is left |
| Engine.Inner.constructor | gateway-sp-comms/src/single_sp.rs:1482-1500 | a new engine has no console client, message id and connection key 0, and no host-phase-2 request recorded; it satisfies the invariant that a channel the engine holds has its sender open |
| Engine.Inner.SetMostRecentHostPhase2Request | gateway-sp-comms/src/single_sp.rs:1928-1937 | the request becomes the recorded one |
| Engine.Inner.ClearMostRecentHostPhase2Request | gateway-sp-comms/src/single_sp.rs:1939-1941 | the record is cleared |
| Engine.Inner.ForwardSerialConsole | gateway-sp-comms/src/single_sp.rs:1943-1970 | console data goes to the attached client unless its buffer is full (then it is dropped); a closed receiver detaches the session, and only then is the sender dropped; the channel is never replaced, and while the engine holds it its sender stays open |
| Engine.Inner.HandleIncomingMessage | gateway-sp-comms/src/single_sp.rs:1716-1736 | a message outside an RPC is handled as `Absorb` says, and the sender of a channel still held stays open |
| Engine.Inner.SendStep | gateway-sp-comms/src/single_sp.rs:1849-1852 | sending within an attempt follows the specification's send step |
| Engine.Inner.ReceiveStep | gateway-sp-comms/src/single_sp.rs:1858-1924 | receiving within an attempt follows the specification's receive step, handling out-of-band messages on the way |
| Engine.Inner.AttemptStep | gateway-sp-comms/src/single_sp.rs:1848-1924 | one turn of the attempt loop keeps the attempt on its specification and makes progress |
| Engine.Inner.RpcCallOneAttempt | gateway-sp-comms/src/single_sp.rs:1822-1926 | `rpc_call_one_attempt` is `Attempt`: its result, the traffic it consumes, its send calls, the copies of the request it puts on the wire, and the session after its out-of-band messages; the channel is not replaced and, while held, keeps its sender open |
| Engine.Inner.AttemptAdvancesRpc | gateway-sp-comms/src/single_sp.rs:1803-1816 | an attempt either ends the RPC with its outcome or leaves it pending with one attempt fewer |
| Engine.Inner.RpcStep | gateway-sp-comms/src/single_sp.rs:1803-1816 | one attempt of an RPC in progress keeps the RPC on its specification |
| Engine.Inner.RpcAttempts | gateway-sp-comms/src/single_sp.rs:1803-1819 | the attempt loop of `rpc_call` is `Attempts` for its budget |
| Engine.Inner.RpcCall | gateway-sp-comms/src/single_sp.rs:1738-1820 | `rpc_call` increments the message id once, serialises the request once, hands back the moved trailing cursor, and makes the attempts of the request's budget, all sending the same bytes; the session is as `AbsorbAll` says after the RPC's out-of-band messages, and a channel still held keeps its sender open |
| Engine.Inner.AttachSerialConsole | gateway-sp-comms/src/single_sp.rs:1972-2008 | attaching while attached fails with `SerialConsoleAlreadyAttached` and changes nothing, the client's channel included; otherwise one RPC, and success exactly when the SP acknowledges; success installs a fresh empty channel of depth 32 and returns the connection key, incremented by 1; failure leaves no channel and the key unchanged |
| Engine.Inner.AttachNew | gateway-sp-comms/src/single_sp.rs:1994-2007 | the part of attaching after the already-attached check, with the same promises |
| Engine.Inner.DetachSerialConsole | gateway-sp-comms/src/single_sp.rs:2010-2016 | one RPC; success exactly when the SP acknowledges, and then the engine lets go of the channel: its sender is dropped while what is buffered stays there for the client to drain; on failure the session is as `AbsorbAll` says and a channel still held keeps its sender open |
| Engine.Inner.HandleSerialConsoleDetach | gateway-sp-comms/src/single_sp.rs:1703-1712 | a detach acts exactly when it names no key or the current key; when it acts, it makes the detach RPC and succeeds exactly when the SP acknowledges, then dropping the channel's sender as `DetachSerialConsole` says, and a wrong acknowledgement is reported as `Expect` does; otherwise it answers `Ok(())` and changes nothing, the client's channel included; the connection key is never changed |
| Commands.AckOf | gateway-sp-comms/src/single_sp.rs:724-728 | an RPC error passes through; an answer succeeds exactly when it is the expected acknowledgement |
| Commands.ResetComponentTriggerResult | gateway-sp-comms/src/single_sp.rs:784-804 | for the SP itself, success exactly when the SP refused the trigger as unprepared, and any answer is `BadResponseType` naming "system-reset"; for other components, success exactly when the SP acknowledges the trigger; other errors pass through |
| Commands.ResetOfSpItselfDecidedByFirstAnswer | gateway-sp-comms/src/single_sp.rs:772-804 | when the SP's first answer to a reset of itself is not `Busy`, the RPC ends after one attempt, and it succeeds exactly when that answer is "trigger without prepare" |
| Commands.ResetComponentTrigger | gateway-sp-comms/src/single_sp.rs:772-804 | one RPC of the trigger, with the reset budget when the component is the SP itself, mapped as above; the session after it is as `AbsorbAll` says, and a channel still held is the same one, with its sender open |
| Commands.SetIpccKeyLookupValue | gateway-sp-comms/src/single_sp.rs:703-729 | a value longer than `MIN_TRAILING_DATA_LEN` is refused before anything is sent and changes nothing, the client's channel included; otherwise the whole value travels in the one request, the SP must acknowledge, and the session after it is as `AbsorbAll` says |
| Commands.StartUpdate | gateway-sp-comms/src/single_sp.rs:572-600 | an empty image is refused first; then a slot other than 0 for the SP itself; otherwise the image goes to the SP, RoT or component driver with its slot |

## Left out

- The async plumbing is not modelled: tokio channels, `spawn`, `select!`, `Drop`, the `Inner::run` loop, SP discovery, and the command channel that carries the public `SingleSp` calls to `Inner`. Each public call is modelled as a direct method call on `Inner`.
- Real time is not modelled. Timers and intervals are abstracted as the `Timeout` inbound entry (or the end of the traffic), so the model says when an attempt times out, not after how long.
- The busy backoff (`sp_busy_policy`, 2019-2031) is not modelled. Its schedule is floating-point and comes from an external crate; since it never gives up, `Busy` is modelled as "resend after a pause".
- The UDP socket, `InnerSocketWrapper::recv` and the shared-socket module are I/O. They are replaced by `SocketHandle`, which holds the inbound traffic, a log of sent datagrams and a set of failing send calls.
- Message serialisation and deserialisation, the `expect_*` extractors other than by response kind, and `str::from_utf8` are outside this file. They are parameters: a `Codec` with `encode` and a per-request `room`, the `deserialize` functions, and an `isUtf8` predicate. TLV decoding of a page (`tlv::decode_iter`) is an input as well: each page is a sequence of decoded chunks.
- `MIN_TRAILING_DATA_LEN` is defined in another crate. It is the codec's `minTrailingDataLen`, and every request is assumed to have room for at least that many bytes.
- Logging and the usdt probes are not modelled.
- The update drivers (`start_sp_update`, `start_rot_update`, `start_component_update`) are not part of this model. `StartUpdate` stops at which driver would receive the image.
- The `SingleSp` wrappers that send one request and expect one acknowledgement are covered only through `RpcCall` and `AckOf`. These include the ignition calls, power state, keepalive, break, caboose reads and reset prepare.
- `parse_response` of the four paginated requests is an input of `Pagination`: a reply is either an error or a page.
- SerialConsole.ConsoleSender.Write: the SP's answers are given as a finite sequence of round trips (room in the packet and reply), and a `Stalled` outcome marks running out of them. The source loops for as long as the SP keeps accepting nothing, which the model does not capture.
- Engine.Inner.DetachSerialConsole: if the client drops its receiver while the detach RPC is under way, `forward_serial_console` drops the sender at that moment. `ForwardSerialConsole` states this for each message, but the detach contract does not carry it across the RPC; it states the dropped sender only for a channel still attached when the RPC ends.
- Types.WrappingAdd32: `message_id += 1` and the other `u32`/`u64` additions wrap, as in a release build. A debug build would panic instead.
- SerialConsole.ConsoleReceiver.Recv: `offset + data.len()` wraps at 2^64 rather than panicking, and `NoGapIffContiguous` is stated only for streams below 2^64.
- `ExhaustedNumAttempts` reads like a count of the attempts made, but line 1819 passes `max_attempts_per_rpc` even when the reset override gave the RPC a different number of attempts. The model follows the code (`ResetOfSilentSpReportsConfiguredBudget` states it).
- The console channel's component argument of `forward_serial_console` is ignored, as in the code.

=== FILE: Commands.dfy ===
/** The request wrappers of `SingleSp` whose logic goes beyond sending one
    request and expecting one acknowledgement: the result mapping of
    `reset_component_trigger`, the size check and trailing data of
    `set_ipcc_key_lookup_value`, and the argument checks of `start_update`. */
module Commands {
  import opened Types
  import opened Cursors
  import opened Engine

  /** `result.and_then(|(_, response, _)| response.expect_…())`: an RPC
      error passes through, an answer must be the expected acknowledgement. */
  function AckOf(r: Result<Answer>, expected: SpResponse): (out: Result<()>)
    ensures out.Ok? <==> r.Ok? && r.value.response == expected
    ensures r.Err? ==> out == Err(r.error)
    ensures r.Ok? && out.Err? ==> out.error == BadResponseType(expected.Name(), r.value.response.Name())
  {
    match r
    case Err(e) => Err(e)
    case Ok(answer) => Expect(answer.response, expected)
  }

  /** What `reset_component_trigger` makes of the RPC's outcome. Resetting
      the SP itself succeeds only when the SP refuses the trigger as
      unprepared, which is how it shows it has already reset; any answer
      from it is an error naming "system-reset". Any other component must
      acknowledge the trigger. */
  function ResetComponentTriggerResult(component: SpComponent, r: Result<Answer>): (out: Result<()>)
    ensures out.Ok? <==>
              (component == SpItself && r == Err(SpError(ResetComponentTriggerWithoutPrepare))) ||
              (component != SpItself && r.Ok? && r.value.response == SysResetComponentTriggerAck)
    ensures component == SpItself && r.Ok? ==> out == Err(BadResponseType("system-reset", r.value.response.Name()))
    ensures component != SpItself && r.Ok? && out.Err? ==>
              out.error == BadResponseType(SysResetComponentTriggerAck.Name(), r.value.response.Name())
    ensures r.Err? && !(component == SpItself && r.error == SpError(ResetComponentTriggerWithoutPrepare)) ==>
              out == Err(r.error)
  {
    match r
    case Ok(answer) =>
      if component == SpItself then Err(BadResponseType("system-reset", answer.response.Name()))
      else AckOf(r, SysResetComponentTriggerAck)
    case Err(SpError(ResetComponentTriggerWithoutPrepare)) =>
      if component == SpItself then Ok(()) else Err(r.error)
    case Err(other) => Err(other)
  }

  /** A reset of the SP itself whose first attempt is answered, on its own
      request, with `response` (not `Busy`) ends with that answer's
      verdict: success exactly when the SP reports the trigger as
      unprepared. */
  lemma ResetOfSpItselfDecidedByFirstAnswer(id: u32, peer: nat, response: SpResponse, data: seq<byte>, rest: seq<Inbound>,
                                            budget: nat, configured: nat, sendCalls: nat, failing: set<nat>)
    requires budget > 0 && sendCalls !in failing && response != Error(Busy)
    ensures var run := Attempts(id, [Response(peer, id, response, data)] + rest, budget, configured, sendCalls, failing);
            run.attempts == 1 &&
            (ResetComponentTriggerResult(SpItself, run.result).Ok? <==> response == Error(ResetComponentTriggerWithoutPrepare))
  {
    var events := [Response(peer, id, response, data)] + rest;
    assert events[0] == Response(peer, id, response, data);
    var a := Attempt(id, events, true, sendCalls, failing);
    assert a.result != Ok(None);
  }

  /** `reset_component_trigger`: one RPC carrying the trigger (with the
      longer attempt allowance when the component is the SP itself), its
      outcome mapped as above. */
  method ResetComponentTrigger(inner: Inner, component: SpComponent) returns (result: Result<()>, ghost run: RpcRun)
    requires inner.Valid()
    modifies inner.socket, inner`messageId, inner`serialConsoleTx, inner`mostRecentHostPhase2Request, inner.serialConsoleTx
    ensures inner.Valid()
    ensures inner.messageId == WrappingAdd32(old(inner.messageId), 1)
    ensures inner.RpcEffects(inner.codec.encode(inner.messageId, MgsRequest.ResetComponentTrigger(component), []),
                             MaxAttempts(MgsRequest.ResetComponentTrigger(component), inner.maxAttemptsPerRpc, inner.perAttemptTimeoutMs), run)
    ensures result == ResetComponentTriggerResult(component, run.result)
    // messages arriving during the RPC are handled as usual; the channel stays the client's
    ensures inner.View() == AbsorbAll(old(inner.View()), old(inner.ChannelCapacity()), old(inner.ChannelOpen()), run.outOfBand)
    ensures inner.serialConsoleTx == null ||
            (inner.serialConsoleTx == old(inner.serialConsoleTx) && inner.ChannelOpen() == old(inner.ChannelOpen()))
  {
    var r, _, rpc := inner.RpcCall(MgsRequest.ResetComponentTrigger(component), None);
    run := rpc;
    result := ResetComponentTriggerResult(component, r);
  }

  /** `set_ipcc_key_lookup_value`: a value longer than the room every
      request is guaranteed (`MIN_TRAILING_DATA_LEN`) is refused before
      anything is sent; otherwise the whole value travels as trailing data
      of the one request, so nothing is left over, and the SP must
      acknowledge. */
  method SetIpccKeyLookupValue(inner: Inner, key: byte, data: seq<byte>) returns (result: Result<()>, ghost run: RpcRun)
    requires inner.Valid()
    modifies inner.socket, inner`messageId, inner`serialConsoleTx, inner`mostRecentHostPhase2Request, inner.serialConsoleTx
    ensures inner.Valid()
    ensures |data| > inner.codec.minTrailingDataLen ==>
              result == Err(IpccKeyLookupValueTooLarge) &&
              unchanged(inner) && unchanged(inner.socket) &&
              (inner.serialConsoleTx != null ==> unchanged(inner.serialConsoleTx))
    ensures |data| <= inner.codec.minTrailingDataLen ==>
              inner.messageId == WrappingAdd32(old(inner.messageId), 1) &&
              inner.RpcEffects(inner.codec.encode(inner.messageId, MgsRequest.SetIpccKeyLookupValue(key), data), inner.maxAttemptsPerRpc, run) &&
              result == AckOf(run.result, SetIpccKeyLookupValueAck) &&
              inner.View() == AbsorbAll(old(inner.View()), old(inner.ChannelCapacity()), old(inner.ChannelOpen()), run.outOfBand) &&
              (inner.serialConsoleTx == null ||
               (inner.serialConsoleTx == old(inner.serialConsoleTx) && inner.ChannelOpen() == old(inner.ChannelOpen())))
  {
    if |data| > inner.codec.minTrailingDataLen {
      result := Err(IpccKeyLookupValueTooLarge);
      run := RpcRun(Err(IpccKeyLookupValueTooLarge), 0, 0, [], 0);
      return;
    }
    ghost var id := WrappingAdd32(inner.messageId, 1);
    ghost var out := Serialize(inner.codec, id, MgsRequest.SetIpccKeyLookupValue(key), Some(Cursor(data, 0)));
    SerializeConsumesTrailing(inner.codec, id, MgsRequest.SetIpccKeyLookupValue(key), Cursor(data, 0));
    var r, leftover, rpc := inner.RpcCall(MgsRequest.SetIpccKeyLookupValue(key), Some(Cursor(data, 0)));
    // the value fitted, so the cursor handed back is exhausted
    assert leftover.Some? && IsEmpty(leftover.value);
    assert inner.codec.room(MgsRequest.SetIpccKeyLookupValue(key)) >= |data|;
    assert RemainingSlice(Cursor(data, 0))[..|data|] == data;
    assert out.datagram == inner.codec.encode(id, MgsRequest.SetIpccKeyLookupValue(key), data);
    run := rpc;
    result := AckOf(r, SetIpccKeyLookupValueAck);
  }

  /** Where `start_update` sends an update it accepts. */
  datatype UpdateStart =
    | Refused(error: UpdateError)
    | SpUpdate(image: seq<byte>)
    | RotUpdate(slot: u16, image: seq<byte>)
    | ComponentUpdate(component: SpComponent, slot: u16, image: seq<byte>)

  /** The checks `start_update` makes before handing the image to the
      update driver: an empty image is refused first, then a slot other
      than 0 for the SP itself (which has only one); the SP, the RoT and
      every other component each have their own driver. */
  function StartUpdate(component: SpComponent, slot: u16, image: seq<byte>): (r: UpdateStart)
    ensures r.Refused? <==> image == [] || (component == SpItself && slot != 0)
    ensures image == [] ==> r == Refused(ImageEmpty)
    ensures image != [] && component == SpItself && slot != 0 ==> r == Refused(Communication(SpError(InvalidSlotForComponent)))
    ensures !r.Refused? ==> r.image == image
    ensures r.SpUpdate? <==> image != [] && component == SpItself && slot == 0
    ensures r.RotUpdate? <==> image != [] && component == Rot
    ensures r.RotUpdate? ==> r.slot == slot
    ensures r.ComponentUpdate? ==> r.component == component && r.slot == slot
  {
    if image == [] then Refused(ImageEmpty)
    else if component == SpItself then
      if slot != 0 then Refused(Communication(SpError(InvalidSlotForComponent))) else SpUpdate(image)
    else if component == Rot then RotUpdate(slot, image)
    else ComponentUpdate(component, slot, image)
  }
}

=== FILE: Cursors.dfy ===
/** `std::io::Cursor<Vec<u8>>` as the engine uses it: a byte buffer and a
    position that may lie past its end, with the `CursorExt` helpers
    `is_empty` and `remaining_slice` and relative seeking. */
module Cursors {
  import opened Types

  datatype Cursor = Cursor(data: seq<byte>, pos: nat)

  /** `remaining_slice`: the bytes from the position on, the position
      clamped to the length. */
  function RemainingSlice(c: Cursor): (r: seq<byte>)
    ensures c.pos <= |c.data| ==> r == c.data[c.pos..]
    ensures c.pos >= |c.data| ==> r == []
  {
    c.data[Min(c.pos, |c.data|)..]
  }

  /** `is_empty`: the position has reached (or passed) the end. */
  function IsEmpty(c: Cursor): (b: bool)
    ensures b <==> RemainingSlice(c) == []
  {
    c.pos >= |c.data|
  }

  /** `seek(SeekFrom::Current(delta))`. The engine unwraps the result, so
      a seek before the start is excluded; past the end is allowed. */
  function Seek(c: Cursor, delta: int): (r: Cursor)
    requires c.pos + delta >= 0
    ensures r.data == c.data && r.pos == c.pos + delta
  {
    Cursor(c.data, c.pos + delta)
  }
}

=== FILE: Engine.dfy ===
/** The RPC engine of one SP connection (`Inner`): one attempt of an RPC
    with its classification of inbound traffic, the attempt budget of a
    whole RPC, and the session state the engine keeps between RPCs —
    message id, serial-console channel and connection key, and the most
    recent host-phase-2 request.

    The UDP socket is modelled by the traffic it would deliver: `inbound`
    is the sequence of messages the SP side produces, in order, where a
    `Timeout` entry (or the end of the sequence) stands for the attempt's
    timer firing before anything else arrives. Sends go to a log; the set
    `failing` names which send calls (counted from the start) fail. */
module Engine {
  import opened Types
  import opened Cursors
  import opened SerialConsole

  datatype HostPhase2Request = HostPhase2Request(hash: seq<byte>, offset: u64, dataSent: u64, receivedAt: nat)

  /** One message from the SP, as the socket wrapper hands it over, or the
      attempt's timer firing. */
  datatype Inbound =
    | HostPhase2(request: HostPhase2Request)
    | ConsoleChunk(component: SpComponent, offset: u64, data: seq<byte>)
    | Response(peer: nat, messageId: u32, response: SpResponse, data: seq<byte>)
    | Timeout

  /** Messages the SP sends on its own initiative, not in answer to a request. */
  predicate OutOfBand(m: Inbound)
  {
    m.HostPhase2? || m.ConsoleChunk?
  }

  /** The requests whose handling the engine distinguishes. */
  datatype MgsRequest =
    | ResetTrigger
    | ResetComponentTrigger(component: SpComponent)
    | SerialConsoleAttach(component: SpComponent)
    | SerialConsoleDetach
    | SerialConsoleWrite(offset: u64)
    | SetIpccKeyLookupValue(key: byte)
    | OtherRequest(name: string)

  /** A successful RPC: who answered, the response and its trailing data. */
  datatype Answer = Answer(peer: nat, response: SpResponse, data: seq<byte>)

  /** What one inbound entry does to an attempt in progress: end it with a
      result, or let it go on, sending the request again first or not. */
  datatype Step = Stop(result: Result<Option<Answer>>) | Continue(resend: bool)

  /** `m` is a `Busy` answer to request `id`. */
  predicate BusyFor(id: u32, m: Inbound)
  {
    m.Response? && m.messageId == id && m.response == Error(Busy)
  }

  /** The classification of one received entry inside an attempt. */
  function Classify(id: u32, m: Inbound): (step: Step)
    // only out-of-band messages and `Busy` answers keep an attempt going,
    // and only `Busy` makes it send again
    ensures step.Continue? <==> OutOfBand(m) || BusyFor(id, m)
    ensures step.Continue? ==> (step.resend <==> BusyFor(id, m))
    // a timer expiry or an answer to some other request ends it quietly
    ensures m.Timeout? || (m.Response? && m.messageId != id) ==> step == Stop(Ok(None))
    // an error answer (other than Busy) to this request fails it
    ensures m.Response? && m.messageId == id && m.response.Error? && m.response.error != Busy ==>
              step == Stop(Err(SpError(m.response.error)))
    // any other answer to this request is the attempt's answer
    ensures m.Response? && m.messageId == id && !m.response.Error? ==>
              step == Stop(Ok(Some(Answer(m.peer, m.response, m.data))))
  {
    match m
    case Timeout => Stop(Ok(None))
    case HostPhase2(_) => Continue(false)
    case ConsoleChunk(_, _, _) => Continue(false)
    case Response(peer, messageId, response, data) =>
      if messageId != id then Stop(Ok(None))
      else if response == Error(Busy) then Continue(true)
      else if response.Error? then Stop(Err(SpError(response.error)))
      else Stop(Ok(Some(Answer(peer, response, data))))
  }

  /** The outcome of one attempt, how many inbound entries it consumed, how
      many send calls it made, and the out-of-band messages it handled, in
      order. */
  datatype AttemptRun = AttemptRun(result: Result<Option<Answer>>, consumed: nat, sends: nat, outOfBand: seq<Inbound>)

  /** `rpc_call_one_attempt` from the point where `resend` says whether the
      request is to be sent (again) before the next receive; `sendCalls`
      counts the send calls made so far. */
  function Attempt(id: u32, events: seq<Inbound>, resend: bool, sendCalls: nat, failing: set<nat>): (run: AttemptRun)
    ensures run.consumed <= |events|
    ensures run.result == Err(SendFailed) ==> run.sends >= 1
    decreases |events|
  {
    var s := if resend then 1 else 0;
    if resend && sendCalls in failing then AttemptRun(Err(SendFailed), 0, 1, [])
    else if events == [] then AttemptRun(Ok(None), 0, s, [])
    else match Classify(id, events[0])
      case Stop(result) => AttemptRun(result, 1, s, [])
      case Continue(again) =>
        var r := Attempt(id, events[1..], again, sendCalls + s, failing);
        var handled := if OutOfBand(events[0]) then [events[0]] else [];
        AttemptRun(r.result, r.consumed + 1, r.sends + s, handled + r.outOfBand)
  }

  /** The number of `Busy` answers to request `id` in `events`. */
  function BusyCount(id: u32, events: seq<Inbound>): nat
  {
    if events == [] then 0
    else (if BusyFor(id, events[0]) then 1 else 0) + BusyCount(id, events[1..])
  }

  /** The out-of-band messages of `events`, in order. */
  function OutOfBandOf(events: seq<Inbound>): (r: seq<Inbound>)
    ensures forall m <- r :: OutOfBand(m)
  {
    if events == [] then []
    else (if OutOfBand(events[0]) then [events[0]] else []) + OutOfBandOf(events[1..])
  }

  /** A non-empty prefix is its first element followed by a prefix of the
      rest. */
  lemma PrefixSplit<T>(s: seq<T>, k: nat)
    requires 1 <= k <= |s|
    ensures s[..k][0] == s[0] && s[..k][1..] == s[1..][..k - 1]
  {
  }

  /** Out-of-band messages never cause a resend: within an attempt the
      request goes out once, plus once more after every `Busy` answer. */
  lemma {:induction false} AttemptSendsOncePlusBusy(id: u32, events: seq<Inbound>, resend: bool, sendCalls: nat, failing: set<nat>)
    ensures var run := Attempt(id, events, resend, sendCalls, failing);
            run.sends == (if resend then 1 else 0) + BusyCount(id, events[..run.consumed])
    decreases |events|
  {
    var run := Attempt(id, events, resend, sendCalls, failing);
    var s := if resend then 1 else 0;
    if !(resend && sendCalls in failing) && events != [] {
      var m := events[0];
      var pre := events[..run.consumed];
      PrefixSplit(events, run.consumed);
      if Classify(id, m).Continue? {
        var r := Attempt(id, events[1..], BusyFor(id, m), sendCalls + s, failing);
        assert run.consumed == r.consumed + 1 && run.sends == r.sends + s;
        AttemptSendsOncePlusBusy(id, events[1..], BusyFor(id, m), sendCalls + s, failing);
        assert BusyCount(id, pre) == (if BusyFor(id, m) then 1 else 0) + BusyCount(id, pre[1..]);
      } else {
        assert run.consumed == 1 && pre[1..] == [];
        assert BusyCount(id, pre) == 0;
      }
    }
  }

  /** The out-of-band messages an attempt handles are exactly those among
      the entries it consumed. */
  lemma {:induction false} AttemptHandlesOutOfBand(id: u32, events: seq<Inbound>, resend: bool, sendCalls: nat, failing: set<nat>)
    ensures var run := Attempt(id, events, resend, sendCalls, failing);
            run.outOfBand == OutOfBandOf(events[..run.consumed])
    decreases |events|
  {
    var run := Attempt(id, events, resend, sendCalls, failing);
    var s := if resend then 1 else 0;
    if !(resend && sendCalls in failing) && events != [] {
      var m := events[0];
      var pre := events[..run.consumed];
      PrefixSplit(events, run.consumed);
      if Classify(id, m).Continue? {
        var r := Attempt(id, events[1..], BusyFor(id, m), sendCalls + s, failing);
        assert run.consumed == r.consumed + 1 && run.outOfBand == (if OutOfBand(m) then [m] else []) + r.outOfBand;
        AttemptHandlesOutOfBand(id, events[1..], BusyFor(id, m), sendCalls + s, failing);
        assert OutOfBandOf(pre) == (if OutOfBand(m) then [m] else []) + OutOfBandOf(pre[1..]);
      } else {
        assert run.consumed == 1 && pre[1..] == [];
        assert OutOfBandOf(pre) == [];
      }
    }
  }

  /** An attempt answers only with the response to its own request: the
      last entry it consumed carries the request's message id and a
      response that is not an error. */
  lemma {:induction false} AttemptAnswersOwnRequest(id: u32, events: seq<Inbound>, resend: bool, sendCalls: nat, failing: set<nat>)
    ensures var run := Attempt(id, events, resend, sendCalls, failing);
            run.result.Ok? && run.result.value.Some? ==>
              var a := run.result.value.value;
              run.consumed >= 1 && !a.response.Error? &&
              events[run.consumed - 1] == Response(a.peer, id, a.response, a.data)
    ensures var run := Attempt(id, events, resend, sendCalls, failing);
            run.result.Err? && run.result.error.SpError? ==>
              run.consumed >= 1 && run.result.error.error != Busy &&
              events[run.consumed - 1].Response? && events[run.consumed - 1].messageId == id &&
              events[run.consumed - 1].response == Error(run.result.error.error)
    decreases |events|
  {
    var s := if resend then 1 else 0;
    if !(resend && sendCalls in failing) && events != [] {
      var m := events[0];
      if Classify(id, m).Continue? {
        AttemptAnswersOwnRequest(id, events[1..], BusyFor(id, m), sendCalls + s, failing);
      }
    }
  }

  /** After out-of-band messages only, an attempt that is not resending
      consumes them all and sends nothing. */
  lemma {:induction false} OutOfBandOnlyNeverResends(id: u32, events: seq<Inbound>, sendCalls: nat, failing: set<nat>)
    requires forall m <- events :: OutOfBand(m)
    ensures Attempt(id, events, false, sendCalls, failing) == AttemptRun(Ok(None), |events|, 0, events)
    decreases |events|
  {
    if events != [] {
      OutOfBandOnlyNeverResends(id, events[1..], sendCalls, failing);
      assert [events[0]] + events[1..] == events;
    }
  }

  /** The same, when the timer then fires. */
  lemma {:induction false} OutOfBandThenTimeout(id: u32, events: seq<Inbound>, sendCalls: nat, failing: set<nat>)
    requires forall m <- events :: OutOfBand(m)
    ensures Attempt(id, events + [Timeout], false, sendCalls, failing) == AttemptRun(Ok(None), |events| + 1, 0, events)
    decreases |events|
  {
    var all := events + [Timeout];
    if events != [] {
      assert all[0] == events[0] && events[0] in events && all[1..] == events[1..] + [Timeout];
      OutOfBandThenTimeout(id, events[1..], sendCalls, failing);
      assert [events[0]] + events[1..] == events;
    } else {
      assert all == [Timeout];
    }
  }

  /** A steady stream of host-phase-2 requests or console data does not keep
      an attempt alive: the request is sent once, every such message is
      handled, and the attempt then times out. */
  lemma OutOfBandStreamTimesOut(id: u32, events: seq<Inbound>, sendCalls: nat, failing: set<nat>)
    requires forall m <- events :: OutOfBand(m)
    requires sendCalls !in failing
    ensures Attempt(id, events + [Timeout], true, sendCalls, failing) == AttemptRun(Ok(None), |events| + 1, 1, events)
  {
    var all := events + [Timeout];
    if events != [] {
      assert all[0] == events[0] && events[0] in events && all[1..] == events[1..] + [Timeout];
      OutOfBandThenTimeout(id, events[1..], sendCalls + 1, failing);
      assert [events[0]] + events[1..] == events;
    } else {
      assert all == [Timeout];
    }
  }

  /** How long an SP is given to come back from a reset. */
  const SP_RESET_TIME_ALLOWED_MS: nat := 30000

  /** The number of attempts that spans the reset allowance: the ceiling of
      `SP_RESET_TIME_ALLOWED_MS / per_attempt_timeout`, a zero timeout
      counted as one millisecond. It is the least number of attempts whose
      timeouts add up to the whole allowance. */
  function CalcResetAttempts(perAttemptTimeoutMs: nat): (n: nat)
    ensures var p := if perAttemptTimeoutMs == 0 then 1 else perAttemptTimeoutMs;
            n >= 1 && n * p >= SP_RESET_TIME_ALLOWED_MS && (n - 1) * p < SP_RESET_TIME_ALLOWED_MS
  {
    var p := if perAttemptTimeoutMs == 0 then 1 else perAttemptTimeoutMs;
    var total := SP_RESET_TIME_ALLOWED_MS + p - 1;
    assert total == (total / p) * p + total % p && 0 <= total % p < p;
    assert (total / p) * p == SP_RESET_TIME_ALLOWED_MS + (p - 1 - total % p);
    assert (total / p - 1) * p == (total / p) * p - p;
    total / p
  }

  /** Resetting the SP itself gets the reset budget instead of the
      configured one, since the SP does not answer while it reboots. */
  function MaxAttempts(request: MgsRequest, maxAttemptsPerRpc: nat, perAttemptTimeoutMs: nat): (n: nat)
    ensures request == ResetTrigger || request == ResetComponentTrigger(SpItself) ==>
              n == CalcResetAttempts(perAttemptTimeoutMs)
    ensures request != ResetTrigger && request != ResetComponentTrigger(SpItself) ==>
              n == maxAttemptsPerRpc
  {
    match request
    case ResetTrigger => CalcResetAttempts(perAttemptTimeoutMs)
    case ResetComponentTrigger(SpItself) => CalcResetAttempts(perAttemptTimeoutMs)
    case _ => maxAttemptsPerRpc
  }

  /** The outcome of a whole RPC: its result, and over all its attempts the
      inbound entries consumed, the send calls made, the out-of-band
      messages handled, and the number of attempts started. */
  datatype RpcRun = RpcRun(result: Result<Answer>, consumed: nat, sends: nat, outOfBand: seq<Inbound>, attempts: nat)

  /** The attempt loop of `rpc_call` with the bookkeeping carried along:
      `remaining` attempts are left, and so far the RPC consumed `consumed`
      entries, made `sends` send calls, handled `handled` and started
      `attempts` attempts. On exhaustion the error reports `configured`,
      the configured per-RPC budget. */
  function RpcFrom(id: u32, events: seq<Inbound>, remaining: nat, configured: nat, sendCalls: nat, failing: set<nat>,
                   consumed: nat, sends: nat, handled: seq<Inbound>, attempts: nat): (run: RpcRun)
    // between one and `remaining` more attempts, within the traffic there is
    ensures attempts <= run.attempts <= attempts + remaining
    decreases remaining
  {
    if remaining == 0 then RpcRun(Err(ExhaustedNumAttempts(configured)), consumed, sends, handled, attempts)
    else
      var a := Attempt(id, events, true, sendCalls, failing);
      match a.result
      case Err(e) => RpcRun(Err(e), consumed + a.consumed, sends + a.sends, handled + a.outOfBand, attempts + 1)
      case Ok(Some(answer)) => RpcRun(Ok(answer), consumed + a.consumed, sends + a.sends, handled + a.outOfBand, attempts + 1)
      case Ok(None) =>
        RpcFrom(id, events[a.consumed..], remaining - 1, configured, sendCalls + a.sends, failing,
                consumed + a.consumed, sends + a.sends, handled + a.outOfBand, attempts + 1)
  }

  /** A whole RPC of `budget` attempts over the inbound traffic `events`,
      with `sendCalls` send calls made before it. */
  function Attempts(id: u32, events: seq<Inbound>, budget: nat, configured: nat, sendCalls: nat, failing: set<nat>): (run: RpcRun)
    ensures run.attempts <= budget
    ensures budget > 0 ==> run.attempts >= 1
    // exhaustion is reported only when the whole budget was used, and names `configured`
    ensures run.result.Err? && run.result.error.ExhaustedNumAttempts? ==>
              run.result == Err(ExhaustedNumAttempts(configured)) && run.attempts == budget
  {
    ExhaustedOnlyAfterWholeBudget(id, events, budget, configured, sendCalls, failing, 0, 0, [], 0);
    RpcFrom(id, events, budget, configured, sendCalls, failing, 0, 0, [], 0)
  }

  /** With `remaining` of its `budget` attempts left, the RPC of request
      `id` comes to `run` when the traffic still to come is `events` and
      `sendCalls` send calls have been made. */
  ghost predicate RpcPending(id: u32, run: RpcRun, events: seq<Inbound>, sendCalls: nat, configured: nat, failing: set<nat>,
                             budget: nat, remaining: nat, consumed: nat, sends: nat, handled: seq<Inbound>)
  {
    && remaining <= budget
    && run == RpcFrom(id, events, remaining, configured, sendCalls, failing, consumed, sends, handled, budget - remaining)
  }

  /** An attempt that leaves the RPC going on uses up one attempt of the
      budget. */
  lemma RpcPendingStep(id: u32, run: RpcRun, events: seq<Inbound>, sendCalls: nat, configured: nat, failing: set<nat>,
                       budget: nat, remaining: nat, consumed: nat, sends: nat, handled: seq<Inbound>, a: AttemptRun,
                       events': seq<Inbound>, sendCalls': nat)
    requires remaining > 0 && RpcPending(id, run, events, sendCalls, configured, failing, budget, remaining, consumed, sends, handled)
    requires a == Attempt(id, events, true, sendCalls, failing) && a.result == Ok(None)
    requires a.consumed <= |events| && events' == events[a.consumed..] && sendCalls' == sendCalls + a.sends
    ensures RpcPending(id, run, events', sendCalls', configured, failing, budget, remaining - 1,
                       consumed + a.consumed, sends + a.sends, handled + a.outOfBand)
  {
    RpcFromGoesOn(run, a, id, events, remaining, configured, sendCalls, failing,
                  consumed, sends, handled, budget - remaining,
                  events', sendCalls', consumed + a.consumed, sends + a.sends, handled + a.outOfBand, budget - (remaining - 1));
  }

  /** An attempt that neither fails nor answers leaves the RPC to the
      remaining attempts. */
  lemma RpcFromGoesOn(run: RpcRun, a: AttemptRun, id: u32, events: seq<Inbound>, remaining: nat, configured: nat, sendCalls: nat,
                      failing: set<nat>, consumed: nat, sends: nat, handled: seq<Inbound>, attempts: nat,
                      events': seq<Inbound>, sendCalls': nat, consumed': nat, sends': nat, handled': seq<Inbound>, attempts': nat)
    requires remaining > 0 && a == Attempt(id, events, true, sendCalls, failing) && a.result == Ok(None)
    requires run == RpcFrom(id, events, remaining, configured, sendCalls, failing, consumed, sends, handled, attempts)
    requires a.consumed <= |events| && events' == events[a.consumed..] && sendCalls' == sendCalls + a.sends
    requires consumed' == consumed + a.consumed && sends' == sends + a.sends && handled' == handled + a.outOfBand
    requires attempts' == attempts + 1
    ensures run == RpcFrom(id, events', remaining - 1, configured, sendCalls', failing, consumed', sends', handled', attempts')
  {
  }

  /** An attempt that ends the RPC (an error or the answer) ends it with
      that outcome. */
  lemma RpcPendingEnds(id: u32, run: RpcRun, events: seq<Inbound>, sendCalls: nat, configured: nat, failing: set<nat>,
                       budget: nat, remaining: nat, consumed: nat, sends: nat, handled: seq<Inbound>,
                       a: AttemptRun, result: Result<Answer>)
    requires remaining > 0 && RpcPending(id, run, events, sendCalls, configured, failing, budget, remaining, consumed, sends, handled)
    requires a == Attempt(id, events, true, sendCalls, failing)
    requires a.result.Err? ==> result == Err(a.result.error)
    requires a.result.Ok? ==> a.result.value.Some? && result == Ok(a.result.value.value)
    ensures run == RpcRun(result, consumed + a.consumed, sends + a.sends, handled + a.outOfBand, budget - remaining + 1)
  {
  }

  /** The datagrams an attempt delivered follow those delivered before it. */
  lemma DeliveredAfter<T>(result: Result<T>, a: AttemptRun, sends: nat)
    requires a.result == Err(SendFailed) ==> a.sends >= 1
    requires result.Err? && result.error == SendFailed <==> a.result == Err(SendFailed)
    ensures Delivered(result, sends + a.sends) == sends + Delivered(a.result, a.sends)
  {
  }

  /** An RPC gives up with `ExhaustedNumAttempts` only once its whole
      budget is spent, and then names the configured budget; it starts at
      least one attempt whenever it has any. */
  lemma {:induction false} ExhaustedOnlyAfterWholeBudget(id: u32, events: seq<Inbound>, remaining: nat, configured: nat, sendCalls: nat,
                                                         failing: set<nat>, consumed: nat, sends: nat, handled: seq<Inbound>, attempts: nat)
    ensures var run := RpcFrom(id, events, remaining, configured, sendCalls, failing, consumed, sends, handled, attempts);
            run.result.Err? && run.result.error.ExhaustedNumAttempts? ==>
              run.result == Err(ExhaustedNumAttempts(configured)) && run.attempts == attempts + remaining
    ensures var run := RpcFrom(id, events, remaining, configured, sendCalls, failing, consumed, sends, handled, attempts);
            remaining > 0 ==> run.attempts > attempts
    decreases remaining
  {
    if remaining > 0 {
      var a := Attempt(id, events, true, sendCalls, failing);
      AttemptNeverExhausts(id, events, true, sendCalls, failing);
      var run := RpcFrom(id, events, remaining, configured, sendCalls, failing, consumed, sends, handled, attempts);
      if a.result == Ok(None) {
        ExhaustedOnlyAfterWholeBudget(id, events[a.consumed..], remaining - 1, configured, sendCalls + a.sends, failing,
                                      consumed + a.consumed, sends + a.sends, handled + a.outOfBand, attempts + 1);
        assert run == RpcFrom(id, events[a.consumed..], remaining - 1, configured, sendCalls + a.sends, failing,
                              consumed + a.consumed, sends + a.sends, handled + a.outOfBand, attempts + 1);
      } else {
        // the attempt answered or failed: the RPC ends with its outcome
        assert run.attempts == attempts + 1 && (run.result.Err? ==> a.result == Err(run.result.error));
      }
    }
  }

  /** A single attempt never reports exhaustion itself. */
  lemma {:induction false} AttemptNeverExhausts(id: u32, events: seq<Inbound>, resend: bool, sendCalls: nat, failing: set<nat>)
    ensures !(Attempt(id, events, resend, sendCalls, failing).result.Err? &&
              Attempt(id, events, resend, sendCalls, failing).result.error.ExhaustedNumAttempts?)
    decreases |events|
  {
    var s := if resend then 1 else 0;
    if !(resend && sendCalls in failing) && events != [] && Classify(id, events[0]).Continue? {
      AttemptNeverExhausts(id, events[1..], BusyFor(id, events[0]), sendCalls + s, failing);
    }
  }

  /** An SP that never answers makes an RPC use its whole budget, one
      timer expiry and one send per attempt, and then report the configured
      budget. */
  lemma {:induction false} SilentSpExhaustsBudget(id: u32, events: seq<Inbound>, remaining: nat, configured: nat, sendCalls: nat,
                                                  failing: set<nat>, consumed: nat, sends: nat, handled: seq<Inbound>, attempts: nat)
    requires |events| >= remaining
    requires forall k :: 0 <= k < remaining ==> events[k] == Timeout
    requires forall c :: sendCalls <= c < sendCalls + remaining ==> c !in failing
    ensures RpcFrom(id, events, remaining, configured, sendCalls, failing, consumed, sends, handled, attempts) ==
            RpcRun(Err(ExhaustedNumAttempts(configured)), consumed + remaining, sends + remaining, handled, attempts + remaining)
    decreases remaining
  {
    if remaining > 0 {
      assert events[0] == Timeout;
      assert Attempt(id, events, true, sendCalls, failing) == AttemptRun(Ok(None), 1, 1, []);
      assert forall k :: 0 <= k < remaining - 1 ==> events[1..][k] == events[k + 1];
      assert handled + [] == handled;
      SilentSpExhaustsBudget(id, events[1..], remaining - 1, configured, sendCalls + 1, failing,
                             consumed + 1, sends + 1, handled, attempts + 1);
    }
  }

  /** A `ResetTrigger` sent to an SP that stays silent is retried for the
      whole reset allowance, yet the error names the configured per-RPC
      budget, not the number of attempts actually made. */
  lemma ResetOfSilentSpReportsConfiguredBudget(id: u32, events: seq<Inbound>, maxAttemptsPerRpc: nat, perAttemptTimeoutMs: nat, sendCalls: nat, failing: set<nat>)
    requires var n := CalcResetAttempts(perAttemptTimeoutMs);
             |events| >= n && (forall k :: 0 <= k < n ==> events[k] == Timeout) &&
             (forall c :: sendCalls <= c < sendCalls + n ==> c !in failing)
    ensures var run := Attempts(id, events, MaxAttempts(ResetTrigger, maxAttemptsPerRpc, perAttemptTimeoutMs), maxAttemptsPerRpc, sendCalls, failing);
            run.result == Err(ExhaustedNumAttempts(maxAttemptsPerRpc)) &&
            run.attempts == CalcResetAttempts(perAttemptTimeoutMs)
  {
    SilentSpExhaustsBudget(id, events, CalcResetAttempts(perAttemptTimeoutMs), maxAttemptsPerRpc, sendCalls, failing, 0, 0, [], 0);
  }

  /** The part of the engine's state that out-of-band messages change: the
      recorded host-phase-2 request, whether a console client is attached,
      and what is buffered for it. */
  datatype Session = Session(hostPhase2: Option<HostPhase2Request>, attached: bool, queue: seq<ConsoleData>)

  /** `handle_incoming_message` on a session whose console channel (when
      attached) holds at most `capacity` chunks and whose receiving end is
      `open` or dropped. Console data is forwarded whatever component it
      names; it is discarded when the buffer is full, and a dropped
      receiver detaches the session. Responses outside an RPC are
      ignored. */
  function Absorb(s: Session, capacity: nat, open: bool, m: Inbound): (r: Session)
    ensures m.HostPhase2? ==> r == s.(hostPhase2 := Some(m.request))
    ensures !m.ConsoleChunk? && !m.HostPhase2? ==> r == s
    ensures m.ConsoleChunk? ==> r.hostPhase2 == s.hostPhase2
    // console data only ever lands at the end of the buffer, and only while
    // a client is attached and listening
    ensures m.ConsoleChunk? ==>
              (r.attached <==> s.attached && open) &&
              (r.queue == s.queue + [ConsoleData(m.offset, m.data)] <==> s.attached && open && |s.queue| < capacity)
    // otherwise only the new chunk is lost: a full buffer keeps its contents,
    // a dropped receiver empties the session's view of the channel
    ensures m.ConsoleChunk? && (!s.attached || (open && |s.queue| >= capacity)) ==> r == s
    ensures m.ConsoleChunk? && s.attached && !open ==> r == s.(attached := false, queue := [])
  {
    match m
    case HostPhase2(request) => s.(hostPhase2 := Some(request))
    case ConsoleChunk(_, offset, data) =>
      if !s.attached then s
      else if !open then s.(attached := false, queue := [])
      else if |s.queue| >= capacity then s
      else s.(queue := s.queue + [ConsoleData(offset, data)])
    case _ => s
  }

  /** The session after handling `ms` in order. */
  function AbsorbAll(s: Session, capacity: nat, open: bool, ms: seq<Inbound>): (r: Session)
    // nothing attaches a client, and while one stays attached its buffer only grows
    ensures r.attached ==> s.attached && s.queue <= r.queue
    ensures (forall i :: 0 <= i < |ms| ==> !ms[i].HostPhase2?) ==> r.hostPhase2 == s.hostPhase2
  {
    if ms == [] then s else Absorb(AbsorbAll(s, capacity, open, ms[..|ms| - 1]), capacity, open, ms[|ms| - 1])
  }

  /** Without a console client, the channel's parameters do not matter. */
  lemma AbsorbIgnoresClosedChannel(s: Session, capacity: nat, open: bool, capacity': nat, open': bool, m: Inbound)
    requires s.attached ==> capacity == capacity' && open == open'
    ensures Absorb(s, capacity, open, m) == Absorb(s, capacity', open', m)
  {
  }

  /** Without a console client, the channel's parameters do not matter
      for a whole run of messages either, and no message attaches one. */
  lemma {:induction false} AbsorbAllIgnoresClosedChannel(s: Session, capacity: nat, open: bool, capacity': nat, open': bool, ms: seq<Inbound>)
    requires s.attached ==> capacity == capacity' && open == open'
    ensures AbsorbAll(s, capacity, open, ms) == AbsorbAll(s, capacity', open', ms)
    ensures !s.attached ==> !AbsorbAll(s, capacity, open, ms).attached
    decreases |ms|
  {
    if ms != [] {
      var init := ms[..|ms| - 1];
      AbsorbAllIgnoresClosedChannel(s, capacity, open, capacity', open', init);
      AbsorbIgnoresClosedChannel(AbsorbAll(s, capacity, open, init), capacity, open, capacity', open', ms[|ms| - 1]);
    }
  }

  lemma AbsorbAllSnoc(s: Session, capacity: nat, open: bool, ms: seq<Inbound>, m: Inbound)
    ensures AbsorbAll(s, capacity, open, ms + [m]) == Absorb(AbsorbAll(s, capacity, open, ms), capacity, open, m)
  {
    assert (ms + [m])[..|ms|] == ms;
  }

  /** Handling two runs of messages one after the other is handling their
      concatenation. */
  lemma {:induction false} AbsorbAllAppend(s: Session, capacity: nat, open: bool, ms: seq<Inbound>, more: seq<Inbound>)
    ensures AbsorbAll(s, capacity, open, ms + more) == AbsorbAll(AbsorbAll(s, capacity, open, ms), capacity, open, more)
    decreases |more|
  {
    if more == [] {
      assert ms + more == ms;
    } else {
      var init, last := more[..|more| - 1], more[|more| - 1];
      assert more == init + [last];
      assert ms + more == (ms + init) + [last];
      AbsorbAllAppend(s, capacity, open, ms, init);
      AbsorbAllSnoc(s, capacity, open, ms + init, last);
      AbsorbAllSnoc(AbsorbAll(s, capacity, open, ms), capacity, open, init, last);
    }
  }

  /** A session that has handled `ms` handles `more` as if it had seen them
      all at once, as long as the console channel is the same one (or gone). */
  lemma AbsorbAllThen(s: Session, capacity: nat, open: bool, ms: seq<Inbound>, capacity': nat, open': bool, more: seq<Inbound>)
    requires AbsorbAll(s, capacity, open, ms).attached ==> capacity == capacity' && open == open'
    ensures AbsorbAll(AbsorbAll(s, capacity, open, ms), capacity', open', more) == AbsorbAll(s, capacity, open, ms + more)
  {
    AbsorbAllIgnoresClosedChannel(AbsorbAll(s, capacity, open, ms), capacity', open', capacity, open, more);
    AbsorbAllAppend(s, capacity, open, ms, more);
  }

  /** `n` copies of `datagram`. */
  function Copies(datagram: seq<byte>, n: nat): (r: seq<seq<byte>>)
    ensures |r| == n && forall d <- r :: d == datagram
  {
    if n == 0 then [] else Copies(datagram, n - 1) + [datagram]
  }

  lemma CopiesSnoc(log: seq<seq<byte>>, datagram: seq<byte>, n: nat)
    ensures log + Copies(datagram, n) + [datagram] == log + Copies(datagram, n + 1)
  {
    assert log + Copies(datagram, n) + [datagram] == log + (Copies(datagram, n) + [datagram]);
  }

  lemma CopiesAppend(log: seq<seq<byte>>, datagram: seq<byte>, n: nat, k: nat)
    ensures log + Copies(datagram, n) + Copies(datagram, k) == log + Copies(datagram, n + k)
  {
    var front, back, all := Copies(datagram, n), Copies(datagram, k), Copies(datagram, n + k);
    forall i | 0 <= i < n + k
      ensures (front + back)[i] == all[i]
    {
      assert all[i] in all;
      if i < n {
        assert front[i] in front;
      } else {
        assert back[i - n] in back;
      }
    }
    assert front + back == all;
    assert log + Copies(datagram, n) + Copies(datagram, k) == log + (Copies(datagram, n) + Copies(datagram, k));
  }

  lemma DropOne<T>(s: seq<T>, k: nat)
    requires k < |s|
    ensures s[k..][1..] == s[k + 1..]
  {
  }

  lemma DropMore<T>(s: seq<T>, k: nat, j: nat)
    requires k + j <= |s|
    ensures s[k..][j..] == s[k + j..]
  {
  }

  /** What an RPC touches, at one moment: the socket's inbound traffic,
      send calls and sent log, the session view and the console channel. */
  datatype Snapshot = Snapshot(inbound: seq<Inbound>, sendCalls: nat, sent: seq<seq<byte>>, view: Session,
                               tx: ConsoleChannel?, capacity: nat, open: bool)

  /** `s` is the state an RPC that started from `inbound0`, `calls0`,
      `sent0` and `session` reaches after consuming `consumed` inbound
      entries, making `calls` send calls, delivering `delivered` datagrams and
      handling `handled`; the channel is the one it started with, or gone. */
  ghost predicate SessionAt(s: Snapshot, datagram: seq<byte>, inbound0: seq<Inbound>, sent0: seq<seq<byte>>, calls0: nat,
                            session: Session, capacity: nat, open: bool, channel: ConsoleChannel?,
                            consumed: nat, calls: nat, delivered: nat, handled: seq<Inbound>)
  {
    && consumed <= |inbound0| && s.inbound == inbound0[consumed..]
    && s.sendCalls == calls0 + calls && s.sent == sent0 + Copies(datagram, delivered)
    && s.view == AbsorbAll(session, capacity, open, handled)
    && (s.tx == null || (s.tx == channel && s.open == open && s.capacity == capacity))
  }

  /** The attempt `a`, sending `datagram`, took the state from `before` to
      `after`. */
  ghost predicate AttemptMoved(before: Snapshot, after: Snapshot, datagram: seq<byte>, a: AttemptRun)
  {
    && (before.view.attached <==> before.tx != null)
    && a.consumed <= |before.inbound| && after.inbound == before.inbound[a.consumed..]
    && after.sendCalls == before.sendCalls + a.sends
    && after.sent == before.sent + Copies(datagram, Delivered(a.result, a.sends))
    && after.view == AbsorbAll(before.view, before.capacity, before.open, a.outOfBand)
    && (after.tx == null || (after.tx == before.tx && after.open == before.open && after.capacity == before.capacity))
  }

  /** An attempt moves an RPC in progress on by what it consumed, sent and
      handled. */
  lemma AttemptMovesSession(before: Snapshot, after: Snapshot, datagram: seq<byte>, inbound0: seq<Inbound>, sent0: seq<seq<byte>>,
                            calls0: nat, session: Session, capacity: nat, open: bool, channel: ConsoleChannel?,
                            consumed: nat, calls: nat, delivered: nat, handled: seq<Inbound>, a: AttemptRun,
                            consumed': nat, calls': nat, delivered': nat, handled': seq<Inbound>)
    requires SessionAt(before, datagram, inbound0, sent0, calls0, session, capacity, open, channel, consumed, calls, delivered, handled)
    requires AttemptMoved(before, after, datagram, a)
    requires consumed' == consumed + a.consumed && calls' == calls + a.sends
    requires delivered' == delivered + Delivered(a.result, a.sends) && handled' == handled + a.outOfBand
    ensures SessionAt(after, datagram, inbound0, sent0, calls0, session, capacity, open, channel, consumed', calls', delivered', handled')
  {
    DropMore(inbound0, consumed, a.consumed);
    CopiesAppend(sent0, datagram, delivered, Delivered(a.result, a.sends));
    AbsorbAllThen(session, capacity, open, handled, before.capacity, before.open, a.outOfBand);
  }

  /** An attempt that answers or fails ends the RPC in the state the
      attempt left. */
  lemma AttemptEndsRpc(before: Snapshot, after: Snapshot, id: u32, datagram: seq<byte>, run: RpcRun, inbound0: seq<Inbound>,
                       sent0: seq<seq<byte>>, calls0: nat, session: Session, capacity: nat, open: bool, channel: ConsoleChannel?,
                       configured: nat, failing: set<nat>, budget: nat, remaining: nat, consumed: nat, sends: nat, handled: seq<Inbound>,
                       a: AttemptRun, result: Result<Answer>)
    requires remaining > 0
    requires SessionAt(before, datagram, inbound0, sent0, calls0, session, capacity, open, channel, consumed, sends, sends, handled)
    requires RpcPending(id, run, before.inbound, before.sendCalls, configured, failing, budget, remaining, consumed, sends, handled)
    requires a == Attempt(id, before.inbound, true, before.sendCalls, failing) && a.result != Ok(None)
    requires AttemptMoved(before, after, datagram, a)
    requires a.result.Err? ==> result == Err(a.result.error)
    requires a.result.Ok? && a.result.value.Some? ==> result == Ok(a.result.value.value)
    ensures result == run.result
    ensures SessionAt(after, datagram, inbound0, sent0, calls0, session, capacity, open, channel,
                      run.consumed, run.sends, Delivered(run.result, run.sends), run.outOfBand)
  {
    RpcPendingEnds(id, run, before.inbound, before.sendCalls, configured, failing, budget, remaining, consumed, sends, handled, a, result);
    DeliveredAfter(run.result, a, sends);
    AttemptMovesSession(before, after, datagram, inbound0, sent0, calls0, session, capacity, open, channel,
                        consumed, sends, sends, handled, a,
                        run.consumed, run.sends, Delivered(run.result, run.sends), run.outOfBand);
  }

  /** An attempt that ends with nothing leaves the RPC pending, one attempt
      fewer, in the state the attempt left. */
  lemma AttemptLeavesRpcPending(before: Snapshot, after: Snapshot, id: u32, datagram: seq<byte>, run: RpcRun, inbound0: seq<Inbound>,
                                sent0: seq<seq<byte>>, calls0: nat, session: Session, capacity: nat, open: bool, channel: ConsoleChannel?,
                                configured: nat, failing: set<nat>, budget: nat, remaining: nat, consumed: nat, sends: nat, handled: seq<Inbound>,
                                a: AttemptRun, consumed': nat, sends': nat, handled': seq<Inbound>)
    requires remaining > 0
    requires SessionAt(before, datagram, inbound0, sent0, calls0, session, capacity, open, channel, consumed, sends, sends, handled)
    requires RpcPending(id, run, before.inbound, before.sendCalls, configured, failing, budget, remaining, consumed, sends, handled)
    requires a == Attempt(id, before.inbound, true, before.sendCalls, failing) && a.result == Ok(None)
    requires AttemptMoved(before, after, datagram, a)
    requires consumed' == consumed + a.consumed && sends' == sends + a.sends && handled' == handled + a.outOfBand
    ensures SessionAt(after, datagram, inbound0, sent0, calls0, session, capacity, open, channel, consumed', sends', sends', handled')
    ensures RpcPending(id, run, after.inbound, after.sendCalls, configured, failing, budget, remaining - 1, consumed', sends', handled')
  {
    RpcPendingStep(id, run, before.inbound, before.sendCalls, configured, failing, budget, remaining, consumed, sends, handled, a,
                   after.inbound, after.sendCalls);
    AttemptMovesSession(before, after, datagram, inbound0, sent0, calls0, session, capacity, open, channel,
                        consumed, sends, sends, handled, a, consumed', sends', sends', handled');
  }

  /** How many of `sends` send calls put a datagram on the wire: all but a
      failing last one. */
  function Delivered<T>(result: Result<T>, sends: nat): nat
  {
    if result.Err? && result.error == SendFailed && sends > 0 then sends - 1 else sends
  }

  /** Only the last send call of an attempt can fail, and when it does the
      attempt ends with `SendFailed`; every other send call went through. */
  lemma {:induction false} AttemptStopsAtFailedSend(id: u32, events: seq<Inbound>, resend: bool, sendCalls: nat, failing: set<nat>)
    ensures var run := Attempt(id, events, resend, sendCalls, failing);
            forall c :: sendCalls <= c < sendCalls + Delivered(run.result, run.sends) ==> c !in failing
    ensures var run := Attempt(id, events, resend, sendCalls, failing);
            run.result == Err(SendFailed) <==> run.sends >= 1 && sendCalls + run.sends - 1 in failing
    decreases |events|
  {
    var run := Attempt(id, events, resend, sendCalls, failing);
    var s := if resend then 1 else 0;
    if !(resend && sendCalls in failing) && events != [] {
      var step := Classify(id, events[0]);
      if step.Continue? {
        var r := Attempt(id, events[1..], step.resend, sendCalls + s, failing);
        AttemptStopsAtFailedSend(id, events[1..], step.resend, sendCalls + s, failing);
        assert run.result == r.result && run.sends == r.sends + s;
        assert Delivered(run.result, run.sends) == Delivered(r.result, r.sends) + s;
      }
    }
  }

  /** `rpc_call_one_attempt` with the bookkeeping carried along: so far the
      attempt consumed `consumed` entries, made `sends` send calls and
      handled `handled`. */
  function AttemptFrom(id: u32, events: seq<Inbound>, resend: bool, sendCalls: nat, failing: set<nat>,
                       consumed: nat, sends: nat, handled: seq<Inbound>): (run: AttemptRun)
    ensures consumed <= run.consumed <= consumed + |events|
    decreases |events|
  {
    if resend && sendCalls in failing then AttemptRun(Err(SendFailed), consumed, sends + 1, handled)
    else
      var calls := if resend then sendCalls + 1 else sendCalls;
      var sent := if resend then sends + 1 else sends;
      if events == [] then AttemptRun(Ok(None), consumed, sent, handled)
      else match Classify(id, events[0])
        case Stop(result) => AttemptRun(result, consumed + 1, sent, handled)
        case Continue(again) =>
          AttemptFrom(id, events[1..], again, calls, failing, consumed + 1, sent,
                      handled + if OutOfBand(events[0]) then [events[0]] else [])
  }

  /** The bookkeeping form describes the same attempt as `Attempt`, shifted
      by what was carried in. */
  lemma {:induction false} AttemptFromIsAttempt(id: u32, events: seq<Inbound>, resend: bool, sendCalls: nat, failing: set<nat>,
                                                consumed: nat, sends: nat, handled: seq<Inbound>)
    ensures var a := Attempt(id, events, resend, sendCalls, failing);
            AttemptFrom(id, events, resend, sendCalls, failing, consumed, sends, handled) ==
            AttemptRun(a.result, consumed + a.consumed, sends + a.sends, handled + a.outOfBand)
    decreases |events|
  {
    assert handled + [] == handled;
    var s := if resend then 1 else 0;
    if !(resend && sendCalls in failing) && events != [] {
      var step := Classify(id, events[0]);
      if step.Continue? {
        var extra := if OutOfBand(events[0]) then [events[0]] else [];
        var r := Attempt(id, events[1..], step.resend, sendCalls + s, failing);
        AttemptFromIsAttempt(id, events[1..], step.resend, sendCalls + s, failing, consumed + 1, sends + s, handled + extra);
        assert (handled + extra) + r.outOfBand == handled + (extra + r.outOfBand);
      }
    }
  }

  lemma AttemptFromSend(run: AttemptRun, id: u32, events: seq<Inbound>, calls: nat, failing: set<nat>,
                        consumed: nat, sends: nat, handled: seq<Inbound>)
    requires run == AttemptFrom(id, events, true, calls, failing, consumed, sends, handled)
    ensures calls in failing ==> run == AttemptRun(Err(SendFailed), consumed, sends + 1, handled)
    ensures calls !in failing ==> run == AttemptFrom(id, events, false, calls + 1, failing, consumed, sends + 1, handled)
  {
  }

  lemma AttemptFromReceive(run: AttemptRun, id: u32, events: seq<Inbound>, calls: nat, failing: set<nat>,
                           consumed: nat, sends: nat, handled: seq<Inbound>)
    requires run == AttemptFrom(id, events, false, calls, failing, consumed, sends, handled)
    ensures events == [] ==> run == AttemptRun(Ok(None), consumed, sends, handled)
    ensures events != [] && Classify(id, events[0]).Stop? ==>
              run == AttemptRun(Classify(id, events[0]).result, consumed + 1, sends, handled)
    ensures events != [] && Classify(id, events[0]).Continue? ==>
              run == AttemptFrom(id, events[1..], Classify(id, events[0]).resend, calls, failing, consumed + 1, sends,
                                 handled + if OutOfBand(events[0]) then [events[0]] else [])
  {
  }

  /** The message codec: `encode` serialises a request with the trailing
      bytes that go with it, `room` is how many trailing bytes fit after a
      request, and every request has room for at least
      `minTrailingDataLen` bytes (`MIN_TRAILING_DATA_LEN`). */
  datatype Codec = Codec(encode: (u32, MgsRequest, seq<byte>) -> seq<byte>, room: MgsRequest -> nat, minTrailingDataLen: nat)

  type SoundCodec = c: Codec | forall r :: c.room(r) >= c.minTrailingDataLen
    witness Codec((id, r, t) => [], r => 0, 0)

  /** A serialised request and the caller's trailing-data cursor after it. */
  datatype Outgoing = Outgoing(datagram: seq<byte>, trailing: Option<Cursor>)

  /** Serialising request `id` once: with trailing data, as many of the
      cursor's remaining bytes as fit go along and the cursor moves past
      them. */
  function Serialize(codec: Codec, id: u32, request: MgsRequest, trailing: Option<Cursor>): (out: Outgoing)
    ensures trailing.None? ==> out == Outgoing(codec.encode(id, request, []), None)
    ensures trailing.Some? ==> out.trailing.Some?
  {
    match trailing
    case None => Outgoing(codec.encode(id, request, []), None)
    case Some(c) =>
      var written := Min(codec.room(request), |RemainingSlice(c)|);
      Outgoing(codec.encode(id, request, RemainingSlice(c)[..written]), Some(Seek(c, written)))
  }

  /** What a request carries of the trailing data is exactly what the cursor
      moves past: no more than fits, no byte lost or sent twice, and all of
      it when it fits. */
  lemma SerializeConsumesTrailing(codec: Codec, id: u32, request: MgsRequest, c: Cursor)
    ensures var out := Serialize(codec, id, request, Some(c));
            exists carried :: |carried| <= codec.room(request) &&
              out.datagram == codec.encode(id, request, carried) &&
              carried + RemainingSlice(out.trailing.value) == RemainingSlice(c) &&
              out.trailing.value.data == c.data && out.trailing.value.pos >= c.pos &&
              (|RemainingSlice(c)| <= codec.room(request) ==> IsEmpty(out.trailing.value))
  {
    var written := Min(codec.room(request), |RemainingSlice(c)|);
    var carried := RemainingSlice(c)[..written];
    var c' := Seek(c, written);
    if c.pos <= |c.data| {
      assert RemainingSlice(c') == c.data[c.pos..][written..];
    }
    assert carried + RemainingSlice(c') == RemainingSlice(c);
  }

  /** `socket_handle`: `inbound` is what the SP side will deliver, in order,
      `sent` the datagrams accepted so far, and `failing` which send calls
      (counted from the start) fail. */
  class SocketHandle {
    const failing: set<nat>
    var inbound: seq<Inbound>
    var sent: seq<seq<byte>>
    var sendCalls: nat

    constructor (failing: set<nat>, inbound: seq<Inbound>)
      ensures this.failing == failing && this.inbound == inbound && sent == [] && sendCalls == 0
    {
      this.failing := failing;
      this.inbound := inbound;
      sent := [];
      sendCalls := 0;
    }

    /** `socket_handle.send`. */
    method Send(datagram: seq<byte>) returns (r: Result<()>)
      modifies this`sent, this`sendCalls
      ensures sendCalls == old(sendCalls) + 1
      ensures old(sendCalls) in failing ==> r == Err(SendFailed) && sent == old(sent)
      ensures old(sendCalls) !in failing ==> r == Ok(()) && sent == old(sent) + [datagram]
    {
      if sendCalls in failing {
        r := Err(SendFailed);
      } else {
        sent := sent + [datagram];
        r := Ok(());
      }
      sendCalls := sendCalls + 1;
    }

    /** `socket_handle.recv` raced against the attempt's timer. */
    method Recv() returns (m: Inbound)
      modifies this`inbound
      ensures old(inbound) == [] ==> m == Timeout && inbound == []
      ensures old(inbound) != [] ==> m == old(inbound)[0] && inbound == old(inbound)[1..]
    {
      if inbound == [] {
        m := Timeout;
      } else {
        m := inbound[0];
        inbound := inbound[1..];
      }
    }
  }

  /** The depth of a serial-console channel. */
  const SERIAL_CONSOLE_CHANNEL_DEPTH: nat := 32

  /** The engine of one SP connection (`Inner`). The discovery channel and
      the command channel are not part of this model. */
  class Inner {
    const socket: SocketHandle
    const codec: SoundCodec
    const maxAttemptsPerRpc: nat
    const perAttemptTimeoutMs: nat
    var serialConsoleTx: ConsoleChannel?
    var messageId: u32
    var serialConsoleConnectionKey: u64
    var mostRecentHostPhase2Request: Option<HostPhase2Request>

    /** `Inner::new`: no console client, message id and connection key 0,
        no host-phase-2 request recorded. */
    constructor (socket: SocketHandle, codec: SoundCodec, maxAttemptsPerRpc: nat, perAttemptTimeoutMs: nat)
      ensures this.socket == socket && this.codec == codec
      ensures this.maxAttemptsPerRpc == maxAttemptsPerRpc && this.perAttemptTimeoutMs == perAttemptTimeoutMs
      ensures serialConsoleTx == null && messageId == 0 && serialConsoleConnectionKey == 0
      ensures mostRecentHostPhase2Request == None
      ensures Valid()
    {
      this.socket := socket;
      this.codec := codec;
      this.maxAttemptsPerRpc := maxAttemptsPerRpc;
      this.perAttemptTimeoutMs := perAttemptTimeoutMs;
      serialConsoleTx := null;
      messageId := 0;
      serialConsoleConnectionKey := 0;
      mostRecentHostPhase2Request := None;
    }

    ghost function View(): Session
      reads this`mostRecentHostPhase2Request, this`serialConsoleTx, (if serialConsoleTx == null then {} else {serialConsoleTx})`queue
    {
      Session(mostRecentHostPhase2Request, serialConsoleTx != null,
              if serialConsoleTx == null then [] else serialConsoleTx.queue)
    }

    ghost function ChannelCapacity(): nat
      reads this`serialConsoleTx
    {
      if serialConsoleTx == null then 0 else serialConsoleTx.capacity
    }

    ghost function ChannelOpen(): bool
      reads this`serialConsoleTx, (if serialConsoleTx == null then {} else {serialConsoleTx})`receiverOpen
    {
      serialConsoleTx != null && serialConsoleTx.receiverOpen
    }

    /** The engine's end of the console channel stays open as long as the
        engine holds the channel: the sender is dropped only together with
        the engine's reference to it. */
    ghost predicate Valid()
      reads this`serialConsoleTx, (if serialConsoleTx == null then {} else {serialConsoleTx})`senderOpen
    {
      serialConsoleTx != null ==> serialConsoleTx.senderOpen
    }

    /** `set_most_recent_host_phase2_request`. */
    method SetMostRecentHostPhase2Request(request: HostPhase2Request)
      modifies this`mostRecentHostPhase2Request
      ensures mostRecentHostPhase2Request == Some(request)
    {
      mostRecentHostPhase2Request := Some(request);
    }

    /** `clear_most_recent_host_phase2_request`. */
    method ClearMostRecentHostPhase2Request()
      modifies this`mostRecentHostPhase2Request
      ensures mostRecentHostPhase2Request == None
    {
      mostRecentHostPhase2Request := None;
    }

    /** `forward_serial_console`. */
    method ForwardSerialConsole(component: SpComponent, offset: u64, data: seq<byte>)
      requires Valid()
      modifies this`serialConsoleTx, serialConsoleTx
      ensures Valid()
      ensures View() == Absorb(old(View()), old(ChannelCapacity()), old(ChannelOpen()), ConsoleChunk(component, offset, data))
      ensures serialConsoleTx == null || (serialConsoleTx == old(serialConsoleTx) && ChannelOpen() == old(ChannelOpen()))
      ensures old(serialConsoleTx) != null && serialConsoleTx == null ==> !old(serialConsoleTx).senderOpen
    {
      if serialConsoleTx != null {
        var res := serialConsoleTx.TrySend(ConsoleData(offset, data));
        if res == Closed {
          serialConsoleTx.DropSender();
          serialConsoleTx := null;
        }
      }
    }

    /** `handle_incoming_message`: a message that arrives outside an RPC. */
    method HandleIncomingMessage(m: Inbound)
      requires !m.Timeout? && Valid()
      modifies this`serialConsoleTx, this`mostRecentHostPhase2Request, serialConsoleTx
      ensures Valid()
      ensures View() == Absorb(old(View()), old(ChannelCapacity()), old(ChannelOpen()), m)
      ensures serialConsoleTx == null || (serialConsoleTx == old(serialConsoleTx) && ChannelOpen() == old(ChannelOpen()))
    {
      match m
      case HostPhase2(request) => SetMostRecentHostPhase2Request(request);
      case ConsoleChunk(component, offset, data) => ForwardSerialConsole(component, offset, data);
      case Response(_, _, _, _) =>
    }

    /** The state of an attempt in progress, relative to the state at its
        start (`inbound0`, `sent0`, `calls0`, `session`): `consumed`
        entries received, `sends` send calls made, `handled` out-of-band
        messages handled, and the whole attempt comes to `run`. */
    ghost predicate InAttempt(id: u32, datagram: seq<byte>, run: AttemptRun, inbound0: seq<Inbound>, sent0: seq<seq<byte>>,
                              calls0: nat, session: Session, capacity: nat, open: bool, channel: ConsoleChannel?,
                              consumed: nat, sends: nat, handled: seq<Inbound>, resend: bool)
      reads socket, this`serialConsoleTx, this`mostRecentHostPhase2Request, serialConsoleTx
    {
      && consumed <= |inbound0| && socket.inbound == inbound0[consumed..]
      && socket.sendCalls == calls0 + sends && socket.sent == sent0 + Copies(datagram, sends)
      && run == AttemptFrom(id, socket.inbound, resend, socket.sendCalls, socket.failing, consumed, sends, handled)
      && View() == AbsorbAll(session, capacity, open, handled)
      && (serialConsoleTx == null || (serialConsoleTx == channel && ChannelOpen() == open && ChannelCapacity() == capacity))
      && Valid()
    }

    /** The attempt `run` has ended with `result`. */
    ghost predicate AttemptEnded(datagram: seq<byte>, run: AttemptRun, result: Result<Option<Answer>>, inbound0: seq<Inbound>,
                                 sent0: seq<seq<byte>>, calls0: nat, session: Session, capacity: nat, open: bool, channel: ConsoleChannel?)
      reads socket, this`serialConsoleTx, this`mostRecentHostPhase2Request, serialConsoleTx
    {
      && result == run.result
      && run.consumed <= |inbound0| && socket.inbound == inbound0[run.consumed..]
      && socket.sendCalls == calls0 + run.sends && socket.sent == sent0 + Copies(datagram, Delivered(run.result, run.sends))
      && View() == AbsorbAll(session, capacity, open, run.outOfBand)
      && (serialConsoleTx == null || (serialConsoleTx == channel && ChannelOpen() == open))
      && Valid()
    }

    /** Send the request (again) within an attempt in progress. */
    method SendStep(id: u32, datagram: seq<byte>, ghost run: AttemptRun, ghost sent0: seq<seq<byte>>,
                    ghost consumed: nat, ghost sends: nat, ghost handled: seq<Inbound>) returns (ok: bool)
      requires run == AttemptFrom(id, socket.inbound, true, socket.sendCalls, socket.failing, consumed, sends, handled)
      requires socket.sent == sent0 + Copies(datagram, sends)
      modifies socket`sent, socket`sendCalls
      ensures socket.sendCalls == old(socket.sendCalls) + 1
      ensures !ok ==> run == AttemptRun(Err(SendFailed), consumed, sends + 1, handled) &&
                      socket.sent == sent0 + Copies(datagram, sends)
      ensures ok ==> run == AttemptFrom(id, socket.inbound, false, socket.sendCalls, socket.failing, consumed, sends + 1, handled) &&
                     socket.sent == sent0 + Copies(datagram, sends + 1)
    {
      ghost var calls := socket.sendCalls;
      var r := socket.Send(datagram);
      AttemptFromSend(run, id, socket.inbound, calls, socket.failing, consumed, sends, handled);
      ok := r.Ok?;
      if ok {
        CopiesSnoc(sent0, datagram, sends);
      }
    }

    /** Receive the next entry within an attempt in progress and, if it is
        out-of-band, handle it. */
    method ReceiveStep(id: u32, ghost run: AttemptRun, ghost inbound0: seq<Inbound>, ghost session: Session,
                       ghost capacity: nat, ghost open: bool, ghost channel: ConsoleChannel?,
                       ghost consumed: nat, ghost sends: nat, ghost handled: seq<Inbound>) returns (step: Step)
      requires consumed <= |inbound0| && socket.inbound == inbound0[consumed..]
      requires run == AttemptFrom(id, socket.inbound, false, socket.sendCalls, socket.failing, consumed, sends, handled)
      requires View() == AbsorbAll(session, capacity, open, handled)
      requires serialConsoleTx == null || (serialConsoleTx == channel && ChannelOpen() == open && ChannelCapacity() == capacity)
      requires Valid()
      modifies socket`inbound, this`serialConsoleTx, this`mostRecentHostPhase2Request, serialConsoleTx
      ensures serialConsoleTx == null || (serialConsoleTx == channel && ChannelOpen() == open && ChannelCapacity() == capacity)
      ensures Valid()
      ensures step.Stop? ==> (step.result.Err? ==> step.result.error.SpError?) &&
                             run == AttemptRun(step.result, run.consumed, sends, handled) &&
                             run.consumed <= |inbound0| && socket.inbound == inbound0[run.consumed..] &&
                             View() == AbsorbAll(session, capacity, open, handled)
      ensures step.Continue? ==>
                consumed < |inbound0| && socket.inbound == inbound0[consumed + 1..] &&
                var m := inbound0[consumed];
                run == AttemptFrom(id, socket.inbound, step.resend, socket.sendCalls, socket.failing, consumed + 1, sends,
                                   handled + if OutOfBand(m) then [m] else []) &&
                View() == AbsorbAll(session, capacity, open, handled + if OutOfBand(m) then [m] else [])
    {
      ghost var events := socket.inbound;
      AttemptFromReceive(run, id, events, socket.sendCalls, socket.failing, consumed, sends, handled);
      var m := socket.Recv();
      step := Classify(id, m);
      if OutOfBand(m) {
        // a host-phase-2 request or console data: record or forward it
        AbsorbAllSnoc(session, capacity, open, handled, m);
        AbsorbIgnoresClosedChannel(View(), ChannelCapacity(), ChannelOpen(), capacity, open, m);
        HandleIncomingMessage(m);
      }
      assert handled + [] == handled;
      if step.Continue? {
        DropOne(inbound0, consumed);
      }
    }

    /** One turn of the attempt loop: send when a send is pending, else
        receive one entry. */
    method AttemptStep(id: u32, datagram: seq<byte>, resend: bool, ghost run: AttemptRun, ghost inbound0: seq<Inbound>,
                       ghost sent0: seq<seq<byte>>, ghost calls0: nat, ghost session: Session, ghost capacity: nat,
                       ghost open: bool, ghost channel: ConsoleChannel?,
                       ghost consumed: nat, ghost sends: nat, ghost handled: seq<Inbound>)
      returns (done: bool, result: Result<Option<Answer>>, again: bool, ghost consumed': nat, ghost sends': nat, ghost handled': seq<Inbound>)
      requires InAttempt(id, datagram, run, inbound0, sent0, calls0, session, capacity, open, channel, consumed, sends, handled, resend)
      modifies socket, this`serialConsoleTx, this`mostRecentHostPhase2Request, serialConsoleTx
      ensures done ==> AttemptEnded(datagram, run, result, inbound0, sent0, calls0, session, capacity, open, channel)
      ensures !done ==> InAttempt(id, datagram, run, inbound0, sent0, calls0, session, capacity, open, channel, consumed', sends', handled', again)
      ensures !done ==> |socket.inbound| < |old(socket.inbound)| || (|socket.inbound| == |old(socket.inbound)| && resend && !again)
    {
      if resend {
        var ok := SendStep(id, datagram, run, sent0, consumed, sends, handled);
        done, result, again, consumed', sends', handled' := !ok, Err(SendFailed), false, consumed, sends + 1, handled;
      } else {
        var step := ReceiveStep(id, run, inbound0, session, capacity, open, channel, consumed, sends, handled);
        if step.Stop? {
          done, result, again, consumed', sends', handled' := true, step.result, false, consumed, sends, handled;
        } else {
          // out-of-band messages are not answers: wait on without resending
          ghost var m := inbound0[consumed];
          done, result, again := false, Ok(None), step.resend;
          consumed', sends', handled' := consumed + 1, sends, handled + if OutOfBand(m) then [m] else [];
        }
      }
    }

    /** `rpc_call_one_attempt`: send the request, then receive until the
        timer fires, the SP answers, or it reports an error; `Busy` makes it
        send again (after a back-off pause, not modelled) and restarts the
        timer, out-of-band messages are handled without either. */
    method RpcCallOneAttempt(id: u32, datagram: seq<byte>) returns (result: Result<Option<Answer>>, ghost run: AttemptRun)
      requires Valid()
      modifies socket, this`serialConsoleTx, this`mostRecentHostPhase2Request, serialConsoleTx
      ensures Valid()
      ensures run == Attempt(id, old(socket.inbound), true, old(socket.sendCalls), socket.failing)
      ensures result == run.result
      ensures socket.inbound == old(socket.inbound)[run.consumed..]
      ensures socket.sendCalls == old(socket.sendCalls) + run.sends
      ensures socket.sent == old(socket.sent) + Copies(datagram, Delivered(run.result, run.sends))
      ensures View() == AbsorbAll(old(View()), old(ChannelCapacity()), old(ChannelOpen()), run.outOfBand)
      ensures serialConsoleTx == null || (serialConsoleTx == old(serialConsoleTx) && ChannelOpen() == old(ChannelOpen()))
    {
      run := Attempt(id, socket.inbound, true, socket.sendCalls, socket.failing);
      ghost var acc := AttemptFrom(id, socket.inbound, true, socket.sendCalls, socket.failing, 0, 0, []);
      AttemptFromIsAttempt(id, socket.inbound, true, socket.sendCalls, socket.failing, 0, 0, []);
      assert [] + run.outOfBand == run.outOfBand;
      ghost var capacity, open, channel := ChannelCapacity(), ChannelOpen(), serialConsoleTx;
      ghost var session := View();
      ghost var inbound0, sent0, calls0 := socket.inbound, socket.sent, socket.sendCalls;
      ghost var consumed: nat, sends: nat, handled: seq<Inbound> := 0, 0, [];
      var resend := true;
      var done := false;
      result := Ok(None);
      while !done
        invariant !done ==> InAttempt(id, datagram, acc, inbound0, sent0, calls0, session, capacity, open, channel, consumed, sends, handled, resend)
        invariant done ==> AttemptEnded(datagram, acc, result, inbound0, sent0, calls0, session, capacity, open, channel)
        decreases !done, |socket.inbound|, resend
      {
        done, result, resend, consumed, sends, handled :=
          AttemptStep(id, datagram, resend, acc, inbound0, sent0, calls0, session, capacity, open, channel, consumed, sends, handled);
      }
    }

    /** The current state, as the RPC machinery sees it. */
    ghost function Snap(): Snapshot
      reads socket, this`serialConsoleTx, this`mostRecentHostPhase2Request, serialConsoleTx
    {
      Snapshot(socket.inbound, socket.sendCalls, socket.sent, View(), serialConsoleTx, ChannelCapacity(), ChannelOpen())
    }

    /** The state of an RPC in progress with `remaining` of its `budget`
        attempts left; the whole RPC comes to `run`. */
    ghost predicate InRpc(id: u32, datagram: seq<byte>, run: RpcRun, inbound0: seq<Inbound>, sent0: seq<seq<byte>>,
                          calls0: nat, session: Session, capacity: nat, open: bool, channel: ConsoleChannel?,
                          budget: nat, remaining: nat, consumed: nat, sends: nat, handled: seq<Inbound>)
      reads socket, this`serialConsoleTx, this`mostRecentHostPhase2Request, serialConsoleTx
    {
      && SessionAt(Snap(), datagram, inbound0, sent0, calls0, session, capacity, open, channel, consumed, sends, sends, handled)
      && RpcPending(id, run, socket.inbound, socket.sendCalls, maxAttemptsPerRpc, socket.failing, budget, remaining, consumed, sends, handled)
      && Valid()
    }

    /** The RPC `run` has ended with `result`. */
    ghost predicate RpcEnded(datagram: seq<byte>, run: RpcRun, result: Result<Answer>, inbound0: seq<Inbound>,
                             sent0: seq<seq<byte>>, calls0: nat, session: Session, capacity: nat, open: bool, channel: ConsoleChannel?)
      reads socket, this`serialConsoleTx, this`mostRecentHostPhase2Request, serialConsoleTx
    {
      && result == run.result
      && SessionAt(Snap(), datagram, inbound0, sent0, calls0, session, capacity, open, channel,
                   run.consumed, run.sends, Delivered(run.result, run.sends), run.outOfBand)
      && Valid()
    }

    /** Where the attempt `a`, which took the state from `before` to the
        current one, leaves an RPC in progress: ended with `result` when
        `done`, otherwise going on with one attempt fewer. */
    lemma AttemptAdvancesRpc(before: Snapshot, id: u32, datagram: seq<byte>, run: RpcRun, inbound0: seq<Inbound>, sent0: seq<seq<byte>>,
                             calls0: nat, session: Session, capacity: nat, open: bool, channel: ConsoleChannel?,
                             budget: nat, remaining: nat, consumed: nat, sends: nat, handled: seq<Inbound>,
                             a: AttemptRun, done: bool, result: Result<Answer>, consumed': nat, sends': nat, handled': seq<Inbound>)
      requires remaining > 0
      requires SessionAt(before, datagram, inbound0, sent0, calls0, session, capacity, open, channel, consumed, sends, sends, handled)
      requires RpcPending(id, run, before.inbound, before.sendCalls, maxAttemptsPerRpc, socket.failing, budget, remaining, consumed, sends, handled)
      requires a == Attempt(id, before.inbound, true, before.sendCalls, socket.failing)
      requires AttemptMoved(before, Snap(), datagram, a)
      requires done <==> a.result != Ok(None)
      requires a.result.Err? ==> result == Err(a.result.error)
      requires a.result.Ok? && a.result.value.Some? ==> result == Ok(a.result.value.value)
      requires consumed' == consumed + a.consumed && sends' == sends + a.sends && handled' == handled + a.outOfBand
      requires Valid()
      ensures done ==> RpcEnded(datagram, run, result, inbound0, sent0, calls0, session, capacity, open, channel)
      ensures !done ==> InRpc(id, datagram, run, inbound0, sent0, calls0, session, capacity, open, channel, budget, remaining - 1,
                              consumed', sends', handled')
    {
      if done {
        AttemptEndsRpc(before, Snap(), id, datagram, run, inbound0, sent0, calls0, session, capacity, open, channel,
                       maxAttemptsPerRpc, socket.failing, budget, remaining, consumed, sends, handled, a, result);
      } else {
        AttemptLeavesRpcPending(before, Snap(), id, datagram, run, inbound0, sent0, calls0, session, capacity, open, channel,
                                maxAttemptsPerRpc, socket.failing, budget, remaining, consumed, sends, handled, a, consumed', sends', handled');
      }
    }

    /** One attempt of an RPC in progress. */
    method RpcStep(id: u32, datagram: seq<byte>, ghost run: RpcRun, ghost inbound0: seq<Inbound>, ghost sent0: seq<seq<byte>>,
                   ghost calls0: nat, ghost session: Session, ghost capacity: nat, ghost open: bool, ghost channel: ConsoleChannel?,
                   ghost budget: nat, ghost remaining: nat, ghost consumed: nat, ghost sends: nat, ghost handled: seq<Inbound>)
      returns (done: bool, result: Result<Answer>, ghost consumed': nat, ghost sends': nat, ghost handled': seq<Inbound>)
      requires remaining > 0
      requires InRpc(id, datagram, run, inbound0, sent0, calls0, session, capacity, open, channel, budget, remaining, consumed, sends, handled)
      modifies socket, this`serialConsoleTx, this`mostRecentHostPhase2Request, serialConsoleTx
      ensures done ==> RpcEnded(datagram, run, result, inbound0, sent0, calls0, session, capacity, open, channel)
      ensures !done ==> InRpc(id, datagram, run, inbound0, sent0, calls0, session, capacity, open, channel, budget, remaining - 1, consumed', sends', handled')
    {
      ghost var before := Snap();
      var r, a := RpcCallOneAttempt(id, datagram);
      match r {
        case Err(e) =>
          done, result := true, Err(e);
        case Ok(Some(answer)) =>
          done, result := true, Ok(answer);
        case Ok(None) =>
          // the attempt timed out or heard an answer to another request
          done, result := false, Err(ExhaustedNumAttempts(maxAttemptsPerRpc));
      }
      consumed', sends', handled' := consumed + a.consumed, sends + a.sends, handled + a.outOfBand;
      AttemptAdvancesRpc(before, id, datagram, run, inbound0, sent0, calls0, session, capacity, open, channel,
                         budget, remaining, consumed, sends, handled, a, done, result, consumed', sends', handled');
    }

    /** The attempt loop of `rpc_call`: up to `budget` attempts of request
        `id`, each sending `datagram`, until one ends the RPC. */
    method RpcAttempts(id: u32, datagram: seq<byte>, budget: nat) returns (result: Result<Answer>, ghost run: RpcRun)
      requires Valid()
      modifies socket, this`serialConsoleTx, this`mostRecentHostPhase2Request, serialConsoleTx
      ensures run == Attempts(id, old(socket.inbound), budget, maxAttemptsPerRpc, old(socket.sendCalls), socket.failing)
      ensures RpcEnded(datagram, run, result, old(socket.inbound), old(socket.sent), old(socket.sendCalls),
                       old(View()), old(ChannelCapacity()), old(ChannelOpen()), old(serialConsoleTx))
    {
      run := Attempts(id, socket.inbound, budget, maxAttemptsPerRpc, socket.sendCalls, socket.failing);
      assert socket.inbound[0..] == socket.inbound;
      ghost var capacity, open, channel := ChannelCapacity(), ChannelOpen(), serialConsoleTx;
      ghost var session := View();
      ghost var inbound0, sent0, calls0 := socket.inbound, socket.sent, socket.sendCalls;
      ghost var consumed: nat, sends: nat, handled: seq<Inbound> := 0, 0, [];
      assert [] + run.outOfBand == run.outOfBand;
      var attempt, done := 1, false;
      result := Err(ExhaustedNumAttempts(maxAttemptsPerRpc));  // assigned by the first attempt
      while !done && attempt <= budget
        invariant 1 <= attempt <= budget + 1
        invariant !done ==> InRpc(id, datagram, run, inbound0, sent0, calls0, session, capacity, open, channel,
                                  budget, budget + 1 - attempt, consumed, sends, handled)
        invariant done ==> RpcEnded(datagram, run, result, inbound0, sent0, calls0, session, capacity, open, channel)
        decreases budget + 1 - attempt, !done
      {
        done, result, consumed, sends, handled :=
          RpcStep(id, datagram, run, inbound0, sent0, calls0, session, capacity, open, channel,
                  budget, budget + 1 - attempt, consumed, sends, handled);
        attempt := attempt + 1;
      }
      if !done {
        // every attempt timed out or heard only answers to other requests
        assert run == RpcRun(Err(ExhaustedNumAttempts(maxAttemptsPerRpc)), consumed, sends, handled, budget);
        result := Err(ExhaustedNumAttempts(maxAttemptsPerRpc));
      }
    }

    /** What an RPC does to the socket: it runs the attempts of request
        `messageId` against the inbound traffic, sending `datagram` each
        time. */
    twostate predicate RpcEffects(datagram: seq<byte>, budget: nat, run: RpcRun)
      reads this`messageId, socket
    {
      && run == Attempts(messageId, old(socket.inbound), budget, maxAttemptsPerRpc, old(socket.sendCalls), socket.failing)
      && run.consumed <= |old(socket.inbound)| && socket.inbound == old(socket.inbound)[run.consumed..]
      && socket.sendCalls == old(socket.sendCalls) + run.sends
      && socket.sent == old(socket.sent) + Copies(datagram, Delivered(run.result, run.sends))
    }

    /** `rpc_call`: allocate the next message id, serialise the request once
        (with as much trailing data as fits, moving the caller's cursor past
        it), and make up to the attempt budget of attempts with those same
        bytes. */
    method RpcCall(request: MgsRequest, trailing: Option<Cursor>) returns (result: Result<Answer>, trailing': Option<Cursor>, ghost run: RpcRun)
      requires Valid()
      modifies socket, this`messageId, this`serialConsoleTx, this`mostRecentHostPhase2Request, serialConsoleTx
      ensures Valid()
      ensures messageId == WrappingAdd32(old(messageId), 1)
      ensures trailing' == Serialize(codec, messageId, request, trailing).trailing
      ensures RpcEffects(Serialize(codec, messageId, request, trailing).datagram, MaxAttempts(request, maxAttemptsPerRpc, perAttemptTimeoutMs), run)
      ensures result == run.result
      ensures View() == AbsorbAll(old(View()), old(ChannelCapacity()), old(ChannelOpen()), run.outOfBand)
      ensures serialConsoleTx == null || (serialConsoleTx == old(serialConsoleTx) && ChannelOpen() == old(ChannelOpen()))
    {
      messageId := WrappingAdd32(messageId, 1);
      var out := Serialize(codec, messageId, request, trailing);
      trailing' := out.trailing;
      result, run := RpcAttempts(messageId, out.datagram, MaxAttempts(request, maxAttemptsPerRpc, perAttemptTimeoutMs));
    }

    /** `attach_serial_console`: refused without contacting the SP when a
        client is already attached; otherwise the SP must acknowledge, and
        then a fresh channel is installed under the next connection key. */
    method AttachSerialConsole(component: SpComponent) returns (result: Result<u64>, incoming: ConsoleChannel?, ghost run: RpcRun)
      requires Valid()
      modifies socket, this`messageId, this`serialConsoleTx, this`serialConsoleConnectionKey, this`mostRecentHostPhase2Request, serialConsoleTx
      ensures Valid()
      ensures old(serialConsoleTx) != null ==>
                result == Err(SpError(SerialConsoleAlreadyAttached)) && incoming == null &&
                unchanged(this) && unchanged(socket) && unchanged(serialConsoleTx)
      ensures old(serialConsoleTx) == null ==>
                messageId == WrappingAdd32(old(messageId), 1) &&
                RpcEffects(codec.encode(messageId, SerialConsoleAttach(component), []), maxAttemptsPerRpc, run) &&
                mostRecentHostPhase2Request == AbsorbAll(old(View()), 0, false, run.outOfBand).hostPhase2
      ensures old(serialConsoleTx) == null ==>
                (result.Ok? <==> run.result.Ok? && run.result.value.response == SerialConsoleAttachAck) &&
                (run.result.Err? ==> result == Err(run.result.error)) &&
                (run.result.Ok? && result.Err? ==> result.error == Expect(run.result.value.response, SerialConsoleAttachAck).error)
      ensures result.Ok? ==>
                incoming != null && fresh(incoming) && serialConsoleTx == incoming &&
                incoming.capacity == SERIAL_CONSOLE_CHANNEL_DEPTH && incoming.queue == [] && incoming.senderOpen && incoming.receiverOpen &&
                serialConsoleConnectionKey == WrappingAdd64(old(serialConsoleConnectionKey), 1) && result.value == serialConsoleConnectionKey
      ensures old(serialConsoleTx) == null && result.Err? ==>
                incoming == null && serialConsoleTx == null && serialConsoleConnectionKey == old(serialConsoleConnectionKey)
    {
      if serialConsoleTx != null {
        // already attached: the SP would refuse a second attach the same way
        return Err(SpError(SerialConsoleAlreadyAttached)), null, RpcRun(Err(SpError(SerialConsoleAlreadyAttached)), 0, 0, [], 0);
      }
      result, incoming, run := AttachNew(component);
    }

    /** The part of `attach_serial_console` past the already-attached check. */
    method AttachNew(component: SpComponent) returns (result: Result<u64>, incoming: ConsoleChannel?, ghost run: RpcRun)
      requires serialConsoleTx == null
      modifies socket, this`messageId, this`serialConsoleTx, this`serialConsoleConnectionKey, this`mostRecentHostPhase2Request
      ensures Valid()
      ensures messageId == WrappingAdd32(old(messageId), 1)
      ensures RpcEffects(codec.encode(messageId, SerialConsoleAttach(component), []), maxAttemptsPerRpc, run)
      ensures mostRecentHostPhase2Request == AbsorbAll(old(View()), 0, false, run.outOfBand).hostPhase2
      ensures result.Ok? <==> run.result.Ok? && run.result.value.response == SerialConsoleAttachAck
      ensures run.result.Err? ==> result == Err(run.result.error)
      ensures run.result.Ok? && result.Err? ==> result.error == Expect(run.result.value.response, SerialConsoleAttachAck).error
      ensures result.Ok? ==>
                incoming != null && fresh(incoming) && serialConsoleTx == incoming &&
                incoming.capacity == SERIAL_CONSOLE_CHANNEL_DEPTH && incoming.queue == [] && incoming.senderOpen && incoming.receiverOpen &&
                serialConsoleConnectionKey == WrappingAdd64(old(serialConsoleConnectionKey), 1) && result.value == serialConsoleConnectionKey
      ensures result.Err? ==>
                incoming == null && serialConsoleTx == null && serialConsoleConnectionKey == old(serialConsoleConnectionKey)
    {
      var r, _, rpc := RpcCall(SerialConsoleAttach(component), None);
      run := rpc;
      AbsorbAllIgnoresClosedChannel(old(View()), 0, false, 0, false, run.outOfBand);
      var ack := if r.Err? then Err(r.error) else Expect(r.value.response, SerialConsoleAttachAck);
      if ack.Err? {
        result, incoming := Err(ack.error), null;
      } else {
        incoming := new ConsoleChannel(SERIAL_CONSOLE_CHANNEL_DEPTH);
        serialConsoleTx := incoming;
        serialConsoleConnectionKey := WrappingAdd64(serialConsoleConnectionKey, 1);
        result := Ok(serialConsoleConnectionKey);
      }
    }

    /** `detach_serial_console`: once the SP acknowledges, the sending end of
        the console channel is dropped. */
    method DetachSerialConsole() returns (result: Result<()>, ghost run: RpcRun)
      requires Valid()
      modifies socket, this`messageId, this`serialConsoleTx, this`mostRecentHostPhase2Request, serialConsoleTx
      ensures Valid()
      ensures messageId == WrappingAdd32(old(messageId), 1)
      ensures RpcEffects(codec.encode(messageId, SerialConsoleDetach, []), maxAttemptsPerRpc, run)
      ensures result.Ok? <==> run.result.Ok? && run.result.value.response == SerialConsoleDetachAck
      ensures run.result.Err? ==> result == Err(run.result.error)
      ensures run.result.Ok? && result.Err? ==> result.error == Expect(run.result.value.response, SerialConsoleDetachAck).error
      ensures mostRecentHostPhase2Request == AbsorbAll(old(View()), old(ChannelCapacity()), old(ChannelOpen()), run.outOfBand).hostPhase2
      ensures result.Ok? ==> serialConsoleTx == null
      // the client's channel, still attached after the RPC, loses its sender
      // but keeps what is buffered for the client to drain
      ensures result.Ok? && AbsorbAll(old(View()), old(ChannelCapacity()), old(ChannelOpen()), run.outOfBand).attached ==>
                old(serialConsoleTx) != null && !old(serialConsoleTx).senderOpen &&
                old(serialConsoleTx).queue == AbsorbAll(old(View()), old(ChannelCapacity()), old(ChannelOpen()), run.outOfBand).queue
      ensures result.Err? ==>
                View() == AbsorbAll(old(View()), old(ChannelCapacity()), old(ChannelOpen()), run.outOfBand) &&
                (serialConsoleTx == null || (serialConsoleTx == old(serialConsoleTx) && ChannelOpen() == old(ChannelOpen())))
    {
      var r, _, rpc := RpcCall(SerialConsoleDetach, None);
      run := rpc;
      if r.Err? {
        return Err(r.error), run;
      }
      var ack := Expect(r.value.response, SerialConsoleDetachAck);
      if ack.Err? {
        return Err(ack.error), run;
      }
      if serialConsoleTx != null {
        serialConsoleTx.DropSender();
      }
      serialConsoleTx := null;
      result := Ok(());
    }

    /** The detach branch of `handle_command`: a detach naming a connection
        key only acts if that is the current key, so a client holding a
        stale key cannot detach a newer one; a detach naming no key always
        acts. */
    method HandleSerialConsoleDetach(key: Option<u64>) returns (result: Result<()>, ghost detached: bool, ghost run: RpcRun)
      requires Valid()
      modifies socket, this`messageId, this`serialConsoleTx, this`mostRecentHostPhase2Request, serialConsoleTx
      ensures Valid()
      ensures detached <==> key.None? || key.value == old(serialConsoleConnectionKey)
      ensures !detached ==>
                result == Ok(()) && unchanged(this) && unchanged(socket) &&
                (serialConsoleTx != null ==> unchanged(serialConsoleTx))
      ensures detached ==>
                messageId == WrappingAdd32(old(messageId), 1) &&
                RpcEffects(codec.encode(messageId, SerialConsoleDetach, []), maxAttemptsPerRpc, run) &&
                (result.Ok? <==> run.result.Ok? && run.result.value.response == SerialConsoleDetachAck) &&
                (run.result.Err? ==> result == Err(run.result.error)) &&
                (run.result.Ok? && result.Err? ==> result.error == Expect(run.result.value.response, SerialConsoleDetachAck).error)
      ensures detached && result.Ok? ==> serialConsoleTx == null
      ensures detached && result.Ok? && AbsorbAll(old(View()), old(ChannelCapacity()), old(ChannelOpen()), run.outOfBand).attached ==>
                old(serialConsoleTx) != null && !old(serialConsoleTx).senderOpen &&
                old(serialConsoleTx).queue == AbsorbAll(old(View()), old(ChannelCapacity()), old(ChannelOpen()), run.outOfBand).queue
      ensures serialConsoleConnectionKey == old(serialConsoleConnectionKey)
    {
      var acts := key.None? || key == Some(serialConsoleConnectionKey);
      detached := acts;
      if acts {
        result, run := DetachSerialConsole();
      } else {
        result := Ok(());
        run := RpcRun(Ok(Answer(0, SerialConsoleDetachAck, [])), 0, 0, [], 0);
      }
    }
  }
}

=== FILE: Pagination.dfy ===
/** `get_paginated_tlv_data`: fetch a list of TLV-encoded items from an SP
    page by page.

    The SP is modelled by its reply to a request for a given offset: the
    outcome of the round trip and of `parse_response`, i.e. either an error or
    a page. Each request of a fetch asks for a strictly larger offset than the
    one before, so a function from offset to reply describes every possible
    sequence of replies. TLV decoding of a page's trailing data is done by the
    codec, outside this model: a page carries its decoded triples (or the
    decoding error at the point it occurs). */
module Pagination {
  import opened Types

  /** Denial-of-service cap on the total a first page may announce. */
  const TLV_RPC_TOTAL_ITEMS_DOS_LIMIT: nat := 1024

  /** One step of `tlv::decode_iter`: a tag/value pair, or a decode error. */
  datatype Chunk = Triple(tag: Tag, value: seq<byte>) | DecodeError(code: nat)

  datatype Page = Page(offset: u32, total: u32, chunks: seq<Chunk>)

  /** Decoding one page's chunks onto `entries` (the inner `for` loop): a
      decode error fails, a chunk that arrives once `total` entries are held
      fails, a known tag appends its item, an unknown tag is skipped. */
  function DecodePage<T>(
    chunks: seq<Chunk>,
    entries: seq<T>,
    total: nat,
    parse: (Tag, seq<byte>) -> Result<Option<T>>): (r: Result<seq<T>>)
    requires |entries| <= total
    ensures r.Ok? ==> entries <= r.value && |r.value| <= total
    decreases |chunks|
  {
    if chunks == [] then Ok(entries)
    else match chunks[0]
      case DecodeError(code) => Err(TlvDecode(code))
      case Triple(tag, value) =>
        if |entries| >= total then Err(TlvPagination(MoreEntriesThanTotal))
        else match parse(tag, value)
          case Err(e) => Err(e)
          case Ok(None) => DecodePage(chunks[1..], entries, total, parse)
          case Ok(Some(item)) => DecodePage(chunks[1..], entries + [item], total, parse)
  }

  /** The items a page's chunks contribute, when none of them fails. */
  function KnownItems<T>(chunks: seq<Chunk>, parse: (Tag, seq<byte>) -> Result<Option<T>>): seq<T>
  {
    if chunks == [] then []
    else match chunks[0]
      case DecodeError(_) => []
      case Triple(tag, value) =>
        match parse(tag, value)
        case Ok(Some(item)) => [item] + KnownItems(chunks[1..], parse)
        case _ => KnownItems(chunks[1..], parse)
  }

  /** No chunk fails to decode or to parse. */
  ghost predicate Clean<T>(chunks: seq<Chunk>, parse: (Tag, seq<byte>) -> Result<Option<T>>)
  {
    forall i :: 0 <= i < |chunks| ==> chunks[i].Triple? && parse(chunks[i].tag, chunks[i].value).Ok?
  }

  /** No chunk arrives once `total` entries are held, starting from `held`. */
  ghost predicate Fits<T>(chunks: seq<Chunk>, held: nat, total: nat, parse: (Tag, seq<byte>) -> Result<Option<T>>)
  {
    forall i :: 0 <= i < |chunks| ==> held + |KnownItems(chunks[..i], parse)| < total
  }

  /** Peeling one parsed chunk off the front of `Clean` and `Fits`. */
  lemma PeelChunk<T>(chunks: seq<Chunk>, held: nat, total: nat, parse: (Tag, seq<byte>) -> Result<Option<T>>)
    requires chunks != [] && chunks[0].Triple? && parse(chunks[0].tag, chunks[0].value).Ok?
    ensures var o := parse(chunks[0].tag, chunks[0].value).value;
            var n := if o.Some? then 1 else 0;
            (Clean(chunks, parse) <==> Clean(chunks[1..], parse)) &&
            (Fits(chunks, held, total, parse) <==> held < total && Fits(chunks[1..], held + n, total, parse)) &&
            KnownItems(chunks, parse) == (if o.Some? then [o.value] else []) + KnownItems(chunks[1..], parse)
  {
    var rest := chunks[1..];
    var o := parse(chunks[0].tag, chunks[0].value).value;
    var n := if o.Some? then 1 else 0;
    assert forall i :: 0 < i < |chunks| ==> chunks[i] == rest[i - 1];
    forall i | 0 < i <= |chunks|
      ensures |KnownItems(chunks[..i], parse)| == n + |KnownItems(rest[..i - 1], parse)|
    {
      assert chunks[..i][0] == chunks[0] && chunks[..i][1..] == rest[..i - 1];
    }
    assert chunks[..0] == [];
    if Fits(chunks, held, total, parse) {
      forall j | 0 <= j < |rest| ensures held + n + |KnownItems(rest[..j], parse)| < total {
        assert held + |KnownItems(chunks[..j + 1], parse)| < total;
      }
    }
    if held < total && Fits(rest, held + n, total, parse) {
      forall i | 0 <= i < |chunks| ensures held + |KnownItems(chunks[..i], parse)| < total {
        if i > 0 { assert held + n + |KnownItems(rest[..i - 1], parse)| < total; }
      }
    }
  }

  /** A page is accepted exactly when every chunk decodes and parses and no
      chunk (known or not) arrives after `total` entries are held; the page
      then appends exactly its known items. */
  lemma {:induction false} DecodePageAccepts<T>(
    chunks: seq<Chunk>, entries: seq<T>, total: nat, parse: (Tag, seq<byte>) -> Result<Option<T>>)
    requires |entries| <= total
    ensures DecodePage(chunks, entries, total, parse).Ok? <==>
              Clean(chunks, parse) && Fits(chunks, |entries|, total, parse)
    ensures DecodePage(chunks, entries, total, parse).Ok? ==>
              DecodePage(chunks, entries, total, parse).value == entries + KnownItems(chunks, parse)
    decreases |chunks|
  {
    if chunks != [] {
      var rest := chunks[1..];
      match chunks[0]
      case DecodeError(_) =>
        assert !Clean(chunks, parse) by { assert !chunks[0].Triple?; }
      case Triple(tag, value) =>
        if parse(tag, value).Err? {
          assert !Clean(chunks, parse) by { assert !parse(chunks[0].tag, chunks[0].value).Ok?; }
        } else {
          PeelChunk(chunks, |entries|, total, parse);
          if |entries| < total {
            match parse(tag, value).value
            case None =>
              DecodePageAccepts(rest, entries, total, parse);
            case Some(item) =>
              DecodePageAccepts(rest, entries + [item], total, parse);
              if DecodePage(chunks, entries, total, parse).Ok? {
                assert (entries + [item]) + KnownItems(rest, parse) == entries + KnownItems(chunks, parse);
              }
          }
        }
    }
  }

  /** The rest of the fetch from the state the loop is in: `page0Total` is
      `None` before the first page, then the total that page announced;
      `entries` are the items collected so far. */
  function FetchFrom<T>(
    sp: nat -> Result<Page>,
    parse: (Tag, seq<byte>) -> Result<Option<T>>,
    page0Total: Option<nat>,
    entries: seq<T>): (r: Result<seq<T>>)
    requires page0Total.None? ==> entries == []
    requires page0Total.Some? ==> |entries| <= page0Total.value <= TLV_RPC_TOTAL_ITEMS_DOS_LIMIT
    // what is collected is kept; a fetch under way ends with exactly the total
    ensures r.Ok? ==> entries <= r.value
    ensures r.Ok? && page0Total.Some? ==> |r.value| == page0Total.value
    // from the start, success means the first page was the one asked for and
    // its total, within the cap, is the number of items returned
    ensures r.Ok? && page0Total.None? ==>
              sp(0).Ok? && sp(0).value.offset == 0 &&
              |r.value| == sp(0).value.total <= TLV_RPC_TOTAL_ITEMS_DOS_LIMIT
    decreases if page0Total.None? then TLV_RPC_TOTAL_ITEMS_DOS_LIMIT + 1 else page0Total.value - |entries|
  {
    if page0Total.Some? && |entries| >= page0Total.value then Ok(entries)
    else
      var offset := |entries|;
      match sp(offset)
      case Err(e) => Err(e)
      case Ok(page) =>
        if page.offset != offset then Err(TlvPagination(UnexpectedOffset))
        else if page0Total.Some? && page0Total.value != page.total then Err(TlvPagination(TotalChanged))
        else if page0Total.None? && page.total > TLV_RPC_TOTAL_ITEMS_DOS_LIMIT then Err(TlvPagination(TooManyItems))
        else
          match DecodePage(page.chunks, entries, page.total, parse)
          case Err(e) => Err(e)
          case Ok(next) =>
            if |next| == offset && page.total > 0 then Err(TlvPagination(NoEntriesParsed))
            else FetchFrom(sp, parse, Some(page.total as nat), next)
  }

  /** The whole fetch, from the first request at offset 0. */
  function Fetch<T>(sp: nat -> Result<Page>, parse: (Tag, seq<byte>) -> Result<Option<T>>): (r: Result<seq<T>>)
    ensures r.Ok? ==> sp(0).Ok? && sp(0).value.offset == 0 && |r.value| == sp(0).value.total <= TLV_RPC_TOTAL_ITEMS_DOS_LIMIT
    ensures sp(0).Err? ==> r == Err(sp(0).error)
    ensures sp(0).Ok? && sp(0).value.offset != 0 ==> r == Err(TlvPagination(UnexpectedOffset))
  {
    FetchFrom(sp, parse, None, [])
  }

  /** `get_paginated_tlv_data`. */
  method GetPaginatedTlvData<T>(sp: nat -> Result<Page>, parse: (Tag, seq<byte>) -> Result<Option<T>>)
    returns (r: Result<seq<T>>)
    ensures r == Fetch(sp, parse)
    ensures r.Ok? ==> sp(0).Ok? && |r.value| == sp(0).value.total <= TLV_RPC_TOTAL_ITEMS_DOS_LIMIT
  {
    var page0Total: Option<nat> := None;
    var entries: seq<T> := [];
    while page0Total.None? || |entries| < page0Total.value
      invariant page0Total.None? ==> entries == []
      invariant page0Total.Some? ==> |entries| <= page0Total.value <= TLV_RPC_TOTAL_ITEMS_DOS_LIMIT
      invariant FetchFrom(sp, parse, page0Total, entries) == Fetch(sp, parse)
      decreases if page0Total.None? then TLV_RPC_TOTAL_ITEMS_DOS_LIMIT + 1 else page0Total.value - |entries|
    {
      // index of the first entry wanted
      var offset := |entries|;
      var reply := sp(offset);
      if reply.Err? {
        return Err(reply.error);
      }
      var page := reply.value;
      if page.offset != offset {
        return Err(TlvPagination(UnexpectedOffset));
      }
      var total: nat;
      if page0Total.Some? {
        if page0Total.value != page.total {
          return Err(TlvPagination(TotalChanged));
        }
        total := page0Total.value;
      } else {
        if page.total > TLV_RPC_TOTAL_ITEMS_DOS_LIMIT {
          return Err(TlvPagination(TooManyItems));
        }
        total := page.total;
      }
      ghost var before := entries;
      var i := 0;
      while i < |page.chunks|
        invariant 0 <= i <= |page.chunks|
        invariant before <= entries && |entries| <= total
        invariant DecodePage(page.chunks, before, total, parse) == DecodePage(page.chunks[i..], entries, total, parse)
      {
        match page.chunks[i]
        case DecodeError(code) =>
          return Err(TlvDecode(code));
        case Triple(tag, value) =>
          if |entries| >= total {
            return Err(TlvPagination(MoreEntriesThanTotal));
          }
          var parsed := parse(tag, value);
          if parsed.Err? {
            return Err(parsed.error);
          }
          if parsed.value.Some? {
            entries := entries + [parsed.value.value];
          }
        assert page.chunks[i..][1..] == page.chunks[i + 1..];
        i := i + 1;
      }
      page0Total := Some(total);
      if |entries| == offset && total > 0 {
        return Err(TlvPagination(NoEntriesParsed));
      }
    }
    return Ok(entries);
  }

  /** A first page announcing more than the cap is refused outright. */
  lemma FetchRejectsTooManyItems<T>(sp: nat -> Result<Page>, parse: (Tag, seq<byte>) -> Result<Option<T>>)
    requires sp(0).Ok? && sp(0).value.offset == 0
    requires sp(0).value.total > TLV_RPC_TOTAL_ITEMS_DOS_LIMIT
    ensures Fetch(sp, parse) == Err(TlvPagination(TooManyItems))
  {
  }

  /** Once the total is known, a page at the requested offset that carries
      another offset or another total ends the fetch with a pagination
      error, and so does a page that adds no entry. */
  lemma FetchRejectsInconsistentPage<T>(
    sp: nat -> Result<Page>, parse: (Tag, seq<byte>) -> Result<Option<T>>, total: nat, entries: seq<T>)
    requires |entries| < total <= TLV_RPC_TOTAL_ITEMS_DOS_LIMIT
    requires sp(|entries|).Ok?
    requires var p := sp(|entries|).value;
             p.offset != |entries| || p.total != total ||
             DecodePage(p.chunks, entries, total, parse) == Ok(entries)
    ensures FetchFrom(sp, parse, Some(total), entries).Err?
    ensures FetchFrom(sp, parse, Some(total), entries).error.TlvPagination?
  {
  }

  /** An SP that serves `items` honestly: every request at an offset below
      the count is answered with a page at that offset, with the count as
      total, whose chunks all parse, whose known items are the next items
      of the list (at least one), and that ends with the last of them. */
  ghost predicate HonestFrom<T>(
    sp: nat -> Result<Page>, parse: (Tag, seq<byte>) -> Result<Option<T>>, items: seq<T>, k: nat)
  {
    sp(k).Ok? &&
    var p := sp(k).value;
    p.offset == k && p.total == |items| && Clean(p.chunks, parse) && Fits(p.chunks, k, |items|, parse) &&
    var known := KnownItems(p.chunks, parse);
    k + |known| <= |items| && items[k..k + |known|] == known &&
    (|items| > 0 ==> |known| > 0)
  }

  ghost predicate HonestSp<T>(sp: nat -> Result<Page>, parse: (Tag, seq<byte>) -> Result<Option<T>>, items: seq<T>)
  {
    HonestFrom(sp, parse, items, 0) &&
    forall k :: 0 < k < |items| ==> HonestFrom(sp, parse, items, k)
  }

  /** Against an honest SP whose list is within the cap, the fetch returns
      exactly that list, however the SP splits it into pages. */
  lemma FetchFromHonestSp<T>(sp: nat -> Result<Page>, parse: (Tag, seq<byte>) -> Result<Option<T>>, items: seq<T>)
    requires |items| <= TLV_RPC_TOTAL_ITEMS_DOS_LIMIT
    requires HonestSp(sp, parse, items)
    ensures Fetch(sp, parse) == Ok(items)
  {
    assert HonestFrom(sp, parse, items, 0);
    var p := sp(0).value;
    var none: seq<T> := [];
    DecodePageAccepts(p.chunks, none, |items|, parse);
    assert Clean(p.chunks, parse) && Fits(p.chunks, |none|, |items|, parse);
    var next := KnownItems(p.chunks, parse);
    assert none + next == next;
    assert DecodePage(p.chunks, none, |items|, parse) == Ok(next);
    assert next == items[..|next|];
    HonestFetchContinues(sp, parse, items, next);
  }

  lemma {:induction false} HonestFetchContinues<T>(
    sp: nat -> Result<Page>, parse: (Tag, seq<byte>) -> Result<Option<T>>, items: seq<T>, entries: seq<T>)
    requires |items| <= TLV_RPC_TOTAL_ITEMS_DOS_LIMIT
    requires forall k :: 0 < k < |items| ==> HonestFrom(sp, parse, items, k)
    requires |entries| <= |items| && entries == items[..|entries|]
    requires |entries| > 0 || |items| == 0
    ensures FetchFrom(sp, parse, Some(|items|), entries) == Ok(items)
    decreases |items| - |entries|
  {
    if |entries| < |items| {
      var k := |entries|;
      assert HonestFrom(sp, parse, items, k);
      var p := sp(k).value;
      DecodePageAccepts(p.chunks, entries, |items|, parse);
      var next := entries + KnownItems(p.chunks, parse);
      assert next == items[..|next|];
      HonestFetchContinues(sp, parse, items, next);
    } else {
      assert entries == items;
    }
  }
}

=== FILE: SerialConsole.dfy ===
/** The attached serial console: the bounded channel that carries console
    data from the engine to the client, the sending half
    (`AttachedSerialConsoleSend::write`) with its acknowledged-offset window,
    and the receiving half (`AttachedSerialConsoleRecv::recv`) with its gap
    detection. */
module SerialConsole {
  import opened Types
  import opened Cursors

  /** One unit of console data: the stream offset of its first byte and
      the bytes. */
  datatype ConsoleData = ConsoleData(offset: u64, data: seq<byte>)

  datatype TrySendResult = Sent | Full | Closed

  /** A bounded `mpsc` channel of console data. The engine holds the
      sending side, the client's receiver the other; each side may be
      dropped. */
  class ConsoleChannel {
    const capacity: nat
    var queue: seq<ConsoleData>
    var senderOpen: bool
    var receiverOpen: bool

    constructor (capacity: nat)
      ensures this.capacity == capacity
      ensures queue == [] && senderOpen && receiverOpen
    {
      this.capacity := capacity;
      queue := [];
      senderOpen := true;
      receiverOpen := true;
    }

    /** `try_send`: never waits; refuses when the receiver is gone or the
        buffer is full. */
    method TrySend(item: ConsoleData) returns (res: TrySendResult)
      modifies this
      ensures senderOpen == old(senderOpen) && receiverOpen == old(receiverOpen)
      ensures !old(receiverOpen) ==> res == Closed && queue == old(queue)
      ensures old(receiverOpen) && |old(queue)| >= capacity ==> res == Full && queue == old(queue)
      ensures old(receiverOpen) && |old(queue)| < capacity ==> res == Sent && queue == old(queue) + [item]
    {
      if !receiverOpen {
        res := Closed;
      } else if |queue| >= capacity {
        res := Full;
      } else {
        queue := queue + [item];
        res := Sent;
      }
    }

    /** `recv` at a moment it can complete: something is buffered, or the
        sender is gone and `None` is the answer. */
    method Recv() returns (m: Option<ConsoleData>)
      requires queue != [] || !senderOpen
      modifies this
      ensures senderOpen == old(senderOpen) && receiverOpen == old(receiverOpen)
      ensures old(queue) == [] ==> m == None && queue == []
      ensures old(queue) != [] ==> m == Some(old(queue)[0]) && queue == old(queue)[1..]
    {
      if queue == [] {
        m := None;
      } else {
        m := Some(queue[0]);
        queue := queue[1..];
      }
    }

    /** Dropping the sender: buffered data can still be received. */
    method DropSender()
      modifies this
      ensures !senderOpen && receiverOpen == old(receiverOpen) && queue == old(queue)
    {
      senderOpen := false;
    }

    /** Dropping the receiver: later sends are refused as `Closed`. */
    method DropReceiver()
      modifies this
      ensures !receiverOpen && senderOpen == old(senderOpen) && queue == old(queue)
    {
      receiverOpen := false;
    }
  }

  /** The acknowledgement check of `write`: the SP's acknowledged offset `n`
      must lie in `[txOffset, txOffset + dataSent]`; the number of bytes it
      accepted is its distance from `txOffset`. */
  function CheckAck(txOffset: u64, dataSent: nat, n: u64): (r: Result<nat>)
    ensures r.Err? <==> n < txOffset || n - txOffset > dataSent
    ensures r.Err? ==> r.error == BogusSerialConsoleState
    ensures r.Ok? ==> txOffset + r.value == n && r.value <= dataSent
  {
    if n < txOffset then Err(BogusSerialConsoleState)
    else if n - txOffset > dataSent then Err(BogusSerialConsoleState)
    else Ok(n - txOffset)
  }

  /** One round trip of `write`: how many bytes fit after the request header
      in this packet, and the outcome of the RPC and of
      `expect_serial_console_write_ack` (the SP's acknowledged offset). */
  datatype WriteRound = WriteRound(room: nat, reply: Result<u64>)

  /** A `SerialConsoleWrite` packet as put on the wire: the stream offset it
      claims and the bytes it carries. */
  datatype WritePacket = WritePacket(offset: u64, payload: seq<byte>)

  /** `Stalled` is not an outcome of the source: it marks that the modelled
      round trips ran out while data was still unacknowledged. */
  datatype WriteOutcome = Done | Failed(error: CommError) | Stalled

  /** What a call of `write` comes to: its outcome, the sender's offset
      afterwards and the packets it sent. */
  datatype WriteRun = WriteRun(outcome: WriteOutcome, txOffset: u64, wire: seq<WritePacket>)

  /** The rest of a `write` whose first `pos` bytes of `data` are
      acknowledged, the sender's offset being `txOffset`, when the round
      trips still to come are `rounds[i..]`. */
  function WriteFrom(data: seq<byte>, txOffset: u64, pos: nat, rounds: seq<WriteRound>, i: nat): (run: WriteRun)
    requires pos <= |data| && i <= |rounds|
    ensures |run.wire| <= |rounds| - i
    decreases |rounds| - i
  {
    if pos == |data| then WriteRun(Done, txOffset, [])
    else if i == |rounds| then WriteRun(Stalled, txOffset, [])
    else
      var written := Min(rounds[i].room, |data| - pos);
      var packet := WritePacket(txOffset, data[pos..][..written]);
      match rounds[i].reply
      case Err(e) => WriteRun(Failed(e), txOffset, [packet])
      case Ok(n) =>
        match CheckAck(txOffset, written, n)
        case Err(e) => WriteRun(Failed(e), txOffset, [packet])
        case Ok(accepted) =>
          var rest := WriteFrom(data, n, pos + accepted, rounds, i + 1);
          WriteRun(rest.outcome, rest.txOffset, [packet] + rest.wire)
  }

  /** The packet carries, at its offset, exactly the bytes of `data` found
      at that position of the stream that began at `base`. */
  ghost predicate Carries(p: WritePacket, data: seq<byte>, base: nat)
  {
    base <= p.offset && p.offset - base + |p.payload| <= |data| &&
    p.payload == data[p.offset - base .. p.offset - base + |p.payload|]
  }

  /** The offset only moves forward, by acknowledged bytes only, and the
      write is done exactly when every byte has been acknowledged. */
  lemma {:induction false} WriteAdvances(data: seq<byte>, txOffset: u64, pos: nat, rounds: seq<WriteRound>, i: nat)
    requires pos <= |data| && i <= |rounds|
    ensures var run := WriteFrom(data, txOffset, pos, rounds, i);
            txOffset <= run.txOffset <= txOffset + (|data| - pos) &&
            (run.outcome == Done <==> run.txOffset == txOffset + (|data| - pos))
    decreases |rounds| - i
  {
    if pos < |data| && i < |rounds| && rounds[i].reply.Ok? {
      var written := Min(rounds[i].room, |data| - pos);
      var n := rounds[i].reply.value;
      if CheckAck(txOffset, written, n).Ok? {
        WriteAdvances(data, n, pos + CheckAck(txOffset, written, n).value, rounds, i + 1);
      }
    }
  }

  /** Every packet carries the stream's own bytes at the offset it names:
      what the SP did not accept is sent again from the acknowledged
      offset. */
  lemma {:induction false} WriteCarriesStream(data: seq<byte>, txOffset: u64, pos: nat, rounds: seq<WriteRound>, i: nat)
    requires pos <= |data| && i <= |rounds| && pos <= txOffset
    ensures forall p <- WriteFrom(data, txOffset, pos, rounds, i).wire :: Carries(p, data, txOffset - pos)
    decreases |rounds| - i
  {
    if pos < |data| && i < |rounds| {
      var written := Min(rounds[i].room, |data| - pos);
      var packet := WritePacket(txOffset, data[pos..][..written]);
      assert Carries(packet, data, txOffset - pos);
      if rounds[i].reply.Ok? {
        var n := rounds[i].reply.value;
        if CheckAck(txOffset, written, n).Ok? {
          WriteCarriesStream(data, n, pos + CheckAck(txOffset, written, n).value, rounds, i + 1);
        }
      }
    }
  }

  /** The first `n` packets were each answered, in the round trip
      `rounds[i + j]` that carried packet `j`, with an acknowledgement inside
      the packet's window. */
  ghost predicate AckedInWindow(wire: seq<WritePacket>, rounds: seq<WriteRound>, i: nat, n: nat)
    requires n <= |wire| && i + |wire| <= |rounds|
  {
    forall k :: i <= k < i + n ==>
      rounds[k].reply.Ok? && CheckAck(wire[k - i].offset, |wire[k - i].payload|, rounds[k].reply.value).Ok?
  }

  /** Each packet after the first starts at the offset acknowledged in the
      round trip before it. */
  ghost predicate ResumesAtAck(wire: seq<WritePacket>, rounds: seq<WriteRound>, i: nat)
    requires i + |wire| <= |rounds|
  {
    forall k :: i <= k && k + 1 < i + |wire| ==>
      rounds[k].reply.Ok? && wire[k + 1 - i].offset == rounds[k].reply.value
  }

  /** Every packet but a failing last one was acknowledged within its
      window. */
  lemma {:induction false} WriteAcksInWindow(data: seq<byte>, txOffset: u64, pos: nat, rounds: seq<WriteRound>, i: nat)
    requires pos <= |data| && i <= |rounds|
    ensures var run := WriteFrom(data, txOffset, pos, rounds, i);
            AckedInWindow(run.wire, rounds, i, if run.outcome.Failed? && |run.wire| > 0 then |run.wire| - 1 else |run.wire|)
    decreases |rounds| - i
  {
    if pos < |data| && i < |rounds| && rounds[i].reply.Ok? {
      var written := Min(rounds[i].room, |data| - pos);
      var n := rounds[i].reply.value;
      var packet := WritePacket(txOffset, data[pos..][..written]);
      if CheckAck(txOffset, written, n).Ok? {
        var next := pos + CheckAck(txOffset, written, n).value;
        var run, rest := WriteFrom(data, txOffset, pos, rounds, i), WriteFrom(data, n, next, rounds, i + 1);
        WriteAcksInWindow(data, n, next, rounds, i + 1);
        assert run.wire == [packet] + rest.wire && run.outcome == rest.outcome;
        var m := if run.outcome.Failed? && |run.wire| > 0 then |run.wire| - 1 else |run.wire|;
        forall k | i <= k < i + m
          ensures rounds[k].reply.Ok? && CheckAck(run.wire[k - i].offset, |run.wire[k - i].payload|, rounds[k].reply.value).Ok?
        {
          if k > i {
            assert run.wire[k - i] == rest.wire[k - (i + 1)];
          }
        }
      }
    }
  }

  /** The first packet starts at the sender's offset, and each later one at
      the offset the SP acknowledged in the round trip before it: whatever
      the SP did not accept is offered again. */
  lemma {:induction false} WriteResumesAtAck(data: seq<byte>, txOffset: u64, pos: nat, rounds: seq<WriteRound>, i: nat)
    requires pos <= |data| && i <= |rounds|
    ensures var run := WriteFrom(data, txOffset, pos, rounds, i);
            (|run.wire| > 0 ==> run.wire[0].offset == txOffset) && ResumesAtAck(run.wire, rounds, i)
    decreases |rounds| - i
  {
    if pos < |data| && i < |rounds| && rounds[i].reply.Ok? {
      var written := Min(rounds[i].room, |data| - pos);
      var n := rounds[i].reply.value;
      var packet := WritePacket(txOffset, data[pos..][..written]);
      if CheckAck(txOffset, written, n).Ok? {
        var next := pos + CheckAck(txOffset, written, n).value;
        var run, rest := WriteFrom(data, txOffset, pos, rounds, i), WriteFrom(data, n, next, rounds, i + 1);
        WriteResumesAtAck(data, n, next, rounds, i + 1);
        assert run.wire == [packet] + rest.wire;
        forall k | i <= k && k + 1 < i + |run.wire|
          ensures rounds[k].reply.Ok? && run.wire[k + 1 - i].offset == rounds[k].reply.value
        {
          assert run.wire[k + 1 - i] == rest.wire[k - i];
        }
      }
    }
  }

  /** How a `write` ends is decided by its last round trip: no packet means
      nothing was due or no round was left; a failure is that round's RPC
      error or an acknowledgement outside its window; otherwise the offset
      that round acknowledged is the sender's new offset, and a stall means
      every round was used. */
  lemma {:induction false} WriteEndsAtLastRound(data: seq<byte>, txOffset: u64, pos: nat, rounds: seq<WriteRound>, i: nat)
    requires pos <= |data| && i <= |rounds|
    ensures var run := WriteFrom(data, txOffset, pos, rounds, i);
            var k := |run.wire|;
            (k == 0 ==> !run.outcome.Failed? && run.txOffset == txOffset) &&
            (run.outcome.Stalled? ==> i + k == |rounds|) &&
            (run.outcome.Failed? ==>
               k > 0 &&
               ((rounds[i + k - 1].reply.Err? && run.outcome.error == rounds[i + k - 1].reply.error) ||
                (rounds[i + k - 1].reply.Ok? && run.outcome.error == BogusSerialConsoleState &&
                 CheckAck(run.wire[k - 1].offset, |run.wire[k - 1].payload|, rounds[i + k - 1].reply.value).Err?))) &&
            (k > 0 && !run.outcome.Failed? ==>
               rounds[i + k - 1].reply.Ok? && run.txOffset == rounds[i + k - 1].reply.value)
    decreases |rounds| - i
  {
    if pos < |data| && i < |rounds| && rounds[i].reply.Ok? {
      var written := Min(rounds[i].room, |data| - pos);
      var n := rounds[i].reply.value;
      var packet := WritePacket(txOffset, data[pos..][..written]);
      if CheckAck(txOffset, written, n).Ok? {
        var next := pos + CheckAck(txOffset, written, n).value;
        var rest := WriteFrom(data, n, next, rounds, i + 1);
        WriteEndsAtLastRound(data, n, next, rounds, i + 1);
        var run := WriteFrom(data, txOffset, pos, rounds, i);
        assert run.wire == [packet] + rest.wire;
        if |rest.wire| > 0 {
          assert run.wire[|run.wire| - 1] == rest.wire[|rest.wire| - 1];
          assert i + |run.wire| - 1 == (i + 1) + |rest.wire| - 1;
        }
      }
    }
  }

  /** `run` is the packets already sent followed by the rest of the write
      from offset `txOffset` and position `pos`. */
  ghost predicate WriteSoFar(run: WriteRun, sent: seq<WritePacket>, data: seq<byte>, txOffset: u64, pos: nat, rounds: seq<WriteRound>, i: nat)
    requires pos <= |data| && i <= |rounds|
  {
    var rest := WriteFrom(data, txOffset, pos, rounds, i);
    run == WriteRun(rest.outcome, rest.txOffset, sent + rest.wire)
  }

  /** One acknowledged round trip of `write`: the packet joins those sent,
      and the rest of the write resumes at the acknowledged offset, as many
      bytes further on as the SP accepted. */
  lemma WriteSoFarAccepted(
    run: WriteRun, sent: seq<WritePacket>, data: seq<byte>, txOffset: u64, pos: nat,
    rounds: seq<WriteRound>, i: nat, written: nat, accepted: nat)
    requires pos < |data| && i < |rounds| && rounds[i].reply.Ok?
    requires written == Min(rounds[i].room, |data| - pos)
    requires CheckAck(txOffset, written, rounds[i].reply.value) == Ok(accepted)
    requires WriteSoFar(run, sent, data, txOffset, pos, rounds, i)
    ensures pos + accepted <= |data|
    ensures WriteSoFar(run, sent + [WritePacket(txOffset, data[pos..][..written])], data,
                       rounds[i].reply.value, pos + accepted, rounds, i + 1)
  {
    var rest := WriteFrom(data, rounds[i].reply.value, pos + accepted, rounds, i + 1);
    var packet := WritePacket(txOffset, data[pos..][..written]);
    assert sent + ([packet] + rest.wire) == (sent + [packet]) + rest.wire;
  }

  /** A round trip whose RPC fails, or whose acknowledgement lies outside
      its window, ends the write with that error and that packet as the
      last one sent. */
  lemma WriteSoFarFailed(
    run: WriteRun, sent: seq<WritePacket>, data: seq<byte>, txOffset: u64, pos: nat,
    rounds: seq<WriteRound>, i: nat, written: nat, e: CommError)
    requires pos < |data| && i < |rounds|
    requires written == Min(rounds[i].room, |data| - pos)
    requires rounds[i].reply == Err(e) ||
             (rounds[i].reply.Ok? && CheckAck(txOffset, written, rounds[i].reply.value) == Err(e))
    requires WriteSoFar(run, sent, data, txOffset, pos, rounds, i)
    ensures run == WriteRun(Failed(e), txOffset, sent + [WritePacket(txOffset, data[pos..][..written])])
  {
  }

  /** With every byte acknowledged the write is done; with bytes left but
      no round trip left it is stalled. */
  lemma WriteSoFarEnds(run: WriteRun, sent: seq<WritePacket>, data: seq<byte>, txOffset: u64, pos: nat, rounds: seq<WriteRound>, i: nat)
    requires pos <= |data| && i <= |rounds| && (pos == |data| || i == |rounds|)
    requires WriteSoFar(run, sent, data, txOffset, pos, rounds, i)
    ensures run == WriteRun(if pos == |data| then Done else Stalled, txOffset, sent)
  {
    assert sent + [] == sent;
  }

  /** `AttachedSerialConsoleSend`. */
  class ConsoleSender {
    const key: u64
    var txOffset: u64

    constructor (key: u64)
      ensures this.key == key && txOffset == 0
    {
      this.key := key;
      txOffset := 0;
    }

    /** `write`: send `data`, packing as much as fits in each packet,
        resending whatever the SP did not accept. */
    method Write(data: seq<byte>, rounds: seq<WriteRound>) returns (outcome: WriteOutcome, ghost wire: seq<WritePacket>)
      modifies this
      ensures WriteRun(outcome, txOffset, wire) == WriteFrom(data, old(txOffset), 0, rounds, 0)
    {
      var cursor := Cursor(data, 0);
      var remaining := |RemainingSlice(cursor)|;
      var i := 0;
      wire := [];
      ghost var run := WriteFrom(data, txOffset, 0, rounds, 0);
      while remaining > 0 && i < |rounds|
        invariant 0 <= i <= |rounds|
        invariant cursor.data == data && cursor.pos <= |data| && remaining == |data| - cursor.pos
        invariant run == WriteFrom(data, old(txOffset), 0, rounds, 0)
        invariant WriteSoFar(run, wire, data, txOffset, cursor.pos, rounds, i)
        decreases |rounds| - i
      {
        var round := rounds[i];
        // the RPC packs as much of the remaining data as fits and advances the cursor
        var written := Min(round.room, remaining);
        var packet := WritePacket(txOffset, RemainingSlice(cursor)[..written]);
        assert RemainingSlice(cursor) == data[cursor.pos..];
        ghost var before, pos := wire, cursor.pos;
        wire := wire + [packet];
        var sentCursor := Seek(cursor, written);
        var dataSent := remaining - |RemainingSlice(sentCursor)|;
        assert dataSent == written;
        if round.reply.Err? {
          WriteSoFarFailed(run, before, data, txOffset, pos, rounds, i, written, round.reply.error);
          return Failed(round.reply.error), wire;
        }
        var check := CheckAck(txOffset, dataSent, round.reply.value);
        if check.Err? {
          WriteSoFarFailed(run, before, data, txOffset, pos, rounds, i, written, check.error);
          return Failed(check.error), wire;
        }
        var accepted := check.value;
        assert packet == WritePacket(txOffset, data[pos..][..written]);
        WriteSoFarAccepted(run, before, data, txOffset, pos, rounds, i, written, accepted);
        cursor := sentCursor;
        if accepted < dataSent {
          // rewind over what the SP did not accept
          cursor := Seek(cursor, -((dataSent - accepted) as int));
        }
        txOffset := txOffset + accepted;
        remaining := |RemainingSlice(cursor)|;
        assert cursor.pos == pos + accepted;
        assert txOffset == round.reply.value;
        i := i + 1;
      }
      WriteSoFarEnds(run, wire, data, txOffset, cursor.pos, rounds, i);
      outcome := if remaining == 0 then Done else Stalled;
      assert run == WriteRun(outcome, txOffset, wire);
    }
  }

  /** The offset expected next after a chunk (`offset + data.len()` on `u64`):
      the offset just past its last byte, wrapping at 2^64. */
  function NextRxOffset(chunk: ConsoleData): (next: u64)
    ensures chunk.offset + |chunk.data| < U64_LIMIT ==> next == chunk.offset + |chunk.data|
    ensures |chunk.data| < U64_LIMIT && chunk.offset + |chunk.data| >= U64_LIMIT ==>
              next == chunk.offset + |chunk.data| - U64_LIMIT
  {
    WrappingAdd64(chunk.offset, |chunk.data|)
  }

  /** `AttachedSerialConsoleRecv`. */
  class ConsoleReceiver {
    const rx: ConsoleChannel
    var rxOffset: u64

    constructor (rx: ConsoleChannel)
      ensures this.rx == rx && rxOffset == 0
    {
      this.rx := rx;
      rxOffset := 0;
    }

    /** `recv`: the next chunk's data, unchanged, or `None` once the channel
        is closed and drained; `gap` is the warning that the chunk does not
        start where the previous one ended. */
    method Recv() returns (r: Option<seq<byte>>, gap: bool)
      requires rx.queue != [] || !rx.senderOpen
      modifies this, rx
      ensures rx.senderOpen == old(rx.senderOpen) && rx.receiverOpen == old(rx.receiverOpen)
      ensures old(rx.queue) == [] ==> r == None && !gap && rxOffset == old(rxOffset) && rx.queue == []
      ensures old(rx.queue) != [] ==>
                var chunk := old(rx.queue)[0];
                r == Some(chunk.data) && rx.queue == old(rx.queue)[1..] &&
                (gap <==> chunk.offset != old(rxOffset)) &&
                rxOffset == NextRxOffset(chunk)
    {
      var m := rx.Recv();
      if m.None? {
        return None, false;
      }
      var chunk := m.value;
      gap := chunk.offset != rxOffset;
      rxOffset := NextRxOffset(chunk);
      r := Some(chunk.data);
    }
  }

  /** `AttachedSerialConsole::split`: both halves start at offset zero. */
  method Split(key: u64, rx: ConsoleChannel) returns (send: ConsoleSender, recv: ConsoleReceiver)
    ensures fresh(send) && fresh(recv)
    ensures send.key == key && send.txOffset == 0
    ensures recv.rx == rx && recv.rxOffset == 0
  {
    send := new ConsoleSender(key);
    recv := new ConsoleReceiver(rx);
  }

  /** The gap warnings a receiver starting at `rx` reports for `chunks`
      received one after another. */
  function GapReports(rx: u64, chunks: seq<ConsoleData>): (gaps: seq<bool>)
    ensures |gaps| == |chunks|
    decreases |chunks|
  {
    if chunks == [] then []
    else [chunks[0].offset != rx] + GapReports(NextRxOffset(chunks[0]), chunks[1..])
  }

  function TotalLength(chunks: seq<ConsoleData>): nat
  {
    if chunks == [] then 0 else |chunks[0].data| + TotalLength(chunks[1..])
  }

  /** Each chunk starts where the stream so far ends. */
  ghost predicate Contiguous(rx: nat, chunks: seq<ConsoleData>)
  {
    forall i :: 0 <= i < |chunks| ==> chunks[i].offset == rx + TotalLength(chunks[..i])
  }

  /** No gap warning among `gaps`. */
  ghost predicate NoGaps(gaps: seq<bool>)
  {
    forall i :: 0 <= i < |gaps| ==> !gaps[i]
  }

  lemma NoGapsCons(b: bool, gaps: seq<bool>)
    ensures NoGaps([b] + gaps) <==> !b && NoGaps(gaps)
  {
    var all := [b] + gaps;
    assert all[0] == b;
    forall i | 0 <= i < |gaps| ensures all[i + 1] == gaps[i] {
    }
    if !b && NoGaps(gaps) {
      forall i | 0 < i < |all| ensures !all[i] {
        assert all[i] == gaps[i - 1];
      }
    }
  }

  /** A receiver that finds the first chunk where it expects it reports a
      gap later exactly when one follows the end of that chunk. */
  lemma NoGapAfterFirst(rx: u64, chunks: seq<ConsoleData>)
    requires chunks != [] && chunks[0].offset == rx
    ensures NoGaps(GapReports(rx, chunks)) <==> NoGaps(GapReports(NextRxOffset(chunks[0]), chunks[1..]))
  {
    var tail := GapReports(NextRxOffset(chunks[0]), chunks[1..]);
    assert GapReports(rx, chunks) == [false] + tail;
    NoGapsCons(false, tail);
  }

  /** Chunks starting with one at `rx` are contiguous from `rx` exactly when
      the rest are contiguous from the end of the first. */
  lemma ContiguousAfterFirst(rx: nat, chunks: seq<ConsoleData>)
    requires chunks != [] && chunks[0].offset == rx
    ensures Contiguous(rx, chunks) <==> Contiguous(rx + |chunks[0].data|, chunks[1..])
  {
    var c, rest := chunks[0], chunks[1..];
    forall i | 0 < i <= |chunks|
      ensures TotalLength(chunks[..i]) == |c.data| + TotalLength(rest[..i - 1])
    {
      assert chunks[..i][0] == c && chunks[..i][1..] == rest[..i - 1];
    }
    forall j | 0 <= j < |rest|
      ensures (chunks[j + 1].offset == rx + TotalLength(chunks[..j + 1])) <==>
              (rest[j].offset == rx + |c.data| + TotalLength(rest[..j]))
    {
      assert rest[j] == chunks[j + 1];
    }
    assert chunks[..0] == [];
    if Contiguous(rx + |c.data|, rest) {
      forall i | 0 <= i < |chunks| ensures chunks[i].offset == rx + TotalLength(chunks[..i]) {
        if i > 0 {
          assert rest[i - 1].offset == rx + |c.data| + TotalLength(rest[..i - 1]);
        }
      }
    }
    if Contiguous(rx, chunks) {
      forall j | 0 <= j < |rest| ensures rest[j].offset == rx + |c.data| + TotalLength(rest[..j]) {
        assert chunks[j + 1].offset == rx + TotalLength(chunks[..j + 1]);
      }
    }
  }

  /** As long as the stream stays below 2^64, no gap is reported exactly
      when the chunks are contiguous from `rx`. */
  lemma {:induction false} NoGapIffContiguous(rx: u64, chunks: seq<ConsoleData>)
    requires rx + TotalLength(chunks) < U64_LIMIT
    ensures NoGaps(GapReports(rx, chunks)) <==> Contiguous(rx, chunks)
    decreases |chunks|
  {
    if chunks != [] {
      var c, rest := chunks[0], chunks[1..];
      assert TotalLength(chunks) == |c.data| + TotalLength(rest);
      if c.offset == rx {
        var next := NextRxOffset(c);
        assert next == rx + |c.data|;
        NoGapIffContiguous(next, rest);
        NoGapAfterFirst(rx, chunks);
        ContiguousAfterFirst(rx, chunks);
      } else {
        // the first chunk is already out of place
        assert GapReports(rx, chunks)[0];
        assert chunks[..0] == [];
      }
    }
  }
}

=== FILE: Tlv.dfy ===
/** The `parse_tag_value` half of the four paginated TLV requests: given one
    tag/value pair, decide whether the tag is one this request knows, and if
    so decode the value into an item or fail.

    Deserialising a fixed header out of a value and checking bytes for UTF-8
    belong to the message codec, which is not part of this model; both enter
    as function parameters (`deserialize`, `isUtf8`). */
module Tlv {
  import opened Types

  const USIZE_MAX: nat := 0xFFFF_FFFF_FFFF_FFFF
  type usize = x: nat | x <= USIZE_MAX

  /** `usize::saturating_add`. */
  function SaturatingAdd(a: usize, b: usize): (r: usize)
    ensures a <= r && b <= r
    ensures a + b <= USIZE_MAX ==> r == a + b
    ensures a + b > USIZE_MAX ==> r == USIZE_MAX
  {
    if a + b <= USIZE_MAX then a + b else USIZE_MAX
  }

  /** The result of deserialising a header `H` from the front of a value:
      the header and the bytes after it, or a codec error. */
  datatype Deserialized<H> = Deserialized(header: H, leftover: seq<byte>) | DeserializeError(code: nat)

  datatype DeviceDescriptionHeader = DeviceDescriptionHeader(
    component: SpComponent,
    deviceLen: usize,
    descriptionLen: usize,
    capabilities: nat,
    presence: nat)

  /** One inventory entry; `device` and `description` are the UTF-8 bytes of
      the two strings. */
  datatype SpDevice = SpDevice(
    component: SpComponent,
    device: seq<byte>,
    description: seq<byte>,
    capabilities: nat,
    presence: nat)

  /** The header of a measurement entry; the `f32` reading is kept as its
      bit pattern. */
  datatype MeasurementHeader = MeasurementHeader(nameLength: usize, kind: nat, valueBits: bv32)

  datatype Measurement = Measurement(name: seq<byte>, kind: nat, valueBits: bv32)

  /** One component-details entry; `P` is the codec's port-status result. */
  datatype ComponentDetails<P> = PortStatus(status: P) | MeasurementEntry(measurement: Measurement)

  /** `InventoryTlvRpc::parse_tag_value`. */
  function InventoryTagValue(
    deserialize: seq<byte> -> Deserialized<DeviceDescriptionHeader>,
    isUtf8: seq<byte> -> bool,
    tag: Tag,
    value: seq<byte>): (r: Result<Option<SpDevice>>)
    // unknown tags are skipped, never an error
    ensures tag != DeviceDescriptionTag ==> r == Ok(None)
    ensures tag == DeviceDescriptionTag && deserialize(value).DeserializeError? ==>
              r == Err(TlvDeserialize(tag, deserialize(value).code))
    // a length mismatch is reported exactly when the header's two lengths do
    // not add up to the bytes that follow it
    ensures r == Err(TlvPagination(InventoryLengthMismatch)) <==>
              tag == DeviceDescriptionTag && deserialize(value).Deserialized? &&
              var h := deserialize(value).header;
              |deserialize(value).leftover| != SaturatingAdd(h.deviceLen, h.descriptionLen)
    // an entry is produced exactly when lengths agree and both strings are UTF-8
    ensures r.Ok? && r.value.Some? <==>
              tag == DeviceDescriptionTag && deserialize(value).Deserialized? &&
              var h, data := deserialize(value).header, deserialize(value).leftover;
              |data| == SaturatingAdd(h.deviceLen, h.descriptionLen) &&
              isUtf8(data[..h.deviceLen]) && isUtf8(data[h.deviceLen..])
    // the entry splits the bytes after the header at `device_len`
    ensures r.Ok? && r.value.Some? ==>
              var h, d := deserialize(value).header, r.value.value;
              d.device + d.description == deserialize(value).leftover &&
              |d.device| == h.deviceLen &&
              d.component == h.component && d.capabilities == h.capabilities && d.presence == h.presence
  {
    if tag != DeviceDescriptionTag then Ok(None)
    else match deserialize(value)
      case DeserializeError(code) => Err(TlvDeserialize(tag, code))
      case Deserialized(header, data) =>
        if |data| != SaturatingAdd(header.deviceLen, header.descriptionLen) then
          Err(TlvPagination(InventoryLengthMismatch))
        else
          var device := data[..header.deviceLen];
          var description := data[header.deviceLen..];
          if !isUtf8(device) then Err(TlvPagination(NonUtf8Device))
          else if !isUtf8(description) then Err(TlvPagination(NonUtf8Description))
          else
            assert device + description == data;
            Ok(Some(SpDevice(header.component, device, description, header.capabilities, header.presence)))
  }

  /** `ComponentDetailsTlvRpc::parse_tag_value`. */
  function ComponentDetailsTagValue<P>(
    deserializePort: seq<byte> -> Deserialized<P>,
    deserializeMeasurement: seq<byte> -> Deserialized<MeasurementHeader>,
    isUtf8: seq<byte> -> bool,
    tag: Tag,
    value: seq<byte>): (r: Result<Option<ComponentDetails<P>>>)
    ensures tag != PortStatusTag && tag != MeasurementTag ==> r == Ok(None)
    // a port status is accepted whatever follows it
    ensures tag == PortStatusTag ==>
              r == match deserializePort(value)
                   case Deserialized(status, _) => Ok(Some(PortStatus(status)))
                   case DeserializeError(code) => Err(TlvDeserialize(tag, code))
    // a measurement's name must fill exactly the bytes after its header
    ensures r == Err(TlvPagination(MeasurementLengthMismatch)) <==>
              tag == MeasurementTag && deserializeMeasurement(value).Deserialized? &&
              |deserializeMeasurement(value).leftover| != deserializeMeasurement(value).header.nameLength
    ensures tag == MeasurementTag && r.Ok? ==>
              var d := deserializeMeasurement(value);
              d.Deserialized? && |d.leftover| == d.header.nameLength && isUtf8(d.leftover) &&
              r.value == Some(MeasurementEntry(Measurement(d.leftover, d.header.kind, d.header.valueBits)))
    // a well-formed measurement is always accepted; the two other ways it can fail
    ensures tag == MeasurementTag && deserializeMeasurement(value).Deserialized? ==>
              var d := deserializeMeasurement(value);
              (|d.leftover| == d.header.nameLength && isUtf8(d.leftover) ==>
                 r == Ok(Some(MeasurementEntry(Measurement(d.leftover, d.header.kind, d.header.valueBits))))) &&
              (|d.leftover| == d.header.nameLength && !isUtf8(d.leftover) ==>
                 r == Err(TlvPagination(NonUtf8MeasurementName)))
    ensures tag == MeasurementTag && deserializeMeasurement(value).DeserializeError? ==>
              r == Err(TlvDeserialize(tag, deserializeMeasurement(value).code))
  {
    if tag == PortStatusTag then
      match deserializePort(value)
      case DeserializeError(code) => Err(TlvDeserialize(tag, code))
      case Deserialized(status, _) => Ok(Some(PortStatus(status)))
    else if tag == MeasurementTag then
      match deserializeMeasurement(value)
      case DeserializeError(code) => Err(TlvDeserialize(tag, code))
      case Deserialized(header, leftover) =>
        if |leftover| != header.nameLength then Err(TlvPagination(MeasurementLengthMismatch))
        else if !isUtf8(leftover) then Err(TlvPagination(NonUtf8MeasurementName))
        else Ok(Some(MeasurementEntry(Measurement(leftover, header.kind, header.valueBits))))
    else Ok(None)
  }

  /** `BulkIgnitionStateTlvRpc::parse_tag_value` and
      `BulkIgnitionLinkEventsTlvRpc::parse_tag_value`: one known tag whose
      value is a single deserialised record; trailing bytes are ignored. */
  function SingleRecordTagValue<H>(
    known: Tag,
    deserialize: seq<byte> -> Deserialized<H>,
    tag: Tag,
    value: seq<byte>): (r: Result<Option<H>>)
    ensures tag != known ==> r == Ok(None)
    ensures tag == known ==> (r.Ok? <==> deserialize(value).Deserialized?)
    ensures r.Ok? && r.value.Some? ==> r.value.value == deserialize(value).header
    ensures tag == known && deserialize(value).Deserialized? ==> r == Ok(Some(deserialize(value).header))
    ensures tag == known && deserialize(value).DeserializeError? ==> r == Err(TlvDeserialize(tag, deserialize(value).code))
  {
    if tag != known then Ok(None)
    else match deserialize(value)
      case DeserializeError(code) => Err(TlvDeserialize(tag, code))
      case Deserialized(record, _) => Ok(Some(record))
  }
}

=== FILE: Types.dfy ===
/** Shared vocabulary of the single-SP communication engine: fixed-width
    integers, the identifiers and error codes of the message catalog, and the
    engine's error kinds. */
module Types {

  type byte = bv8

  /** Rust `u32` and `u64`, kept as bounded naturals. */
  const U32_LIMIT: nat := 0x1_0000_0000
  const U64_LIMIT: nat := 0x1_0000_0000_0000_0000
  type u16 = x: nat | x < 0x1_0000
  type u32 = x: nat | x < U32_LIMIT
  type u64 = x: nat | x < U64_LIMIT

  /** Wrapping addition on `u32` and `u64` (overflow checks off, as in a
      release build). */
  function WrappingAdd32(a: u32, b: u32): (r: u32)
    ensures a + b < U32_LIMIT ==> r == a + b
    ensures a + b >= U32_LIMIT ==> r == a + b - U32_LIMIT && r < a
  {
    (a + b) % U32_LIMIT
  }

  function WrappingAdd64(a: u64, b: nat): (r: u64)
    ensures a + b < U64_LIMIT ==> r == a + b
    ensures b < U64_LIMIT && a + b >= U64_LIMIT ==> r == a + b - U64_LIMIT
  {
    (a + b) % U64_LIMIT
  }

  function Min(a: nat, b: nat): nat { if a <= b then a else b }

  datatype Option<T> = None | Some(value: T)

  datatype Result<T> = Ok(value: T) | Err(error: CommError)

  /** A component identifier; `SP_ITSELF` and `ROT` are the two the engine
      singles out, every other identifier is `Named`. */
  datatype SpComponent = SpItself | Rot | Named(id: seq<byte>)

  /** The error codes an SP can answer with that this engine reacts to. */
  datatype SpError =
    | Busy
    | ResetComponentTriggerWithoutPrepare
    | SerialConsoleAlreadyAttached
    | InvalidSlotForComponent
    | OtherSpError(code: nat)

  /** The response kinds the engine inspects; every other response kind is
      `OtherResponse`, identified only by its name. */
  datatype SpResponse =
    | Error(error: SpError)
    | SerialConsoleAttachAck
    | SerialConsoleDetachAck
    | SerialConsoleWriteAck(furthestOffset: u64)
    | SysResetComponentTriggerAck
    | SetIpccKeyLookupValueAck
    | OtherResponse(name: string)
  {
    function Name(): string {
      match this
      case Error(_) => "error"
      case SerialConsoleAttachAck => "serial_console_attach_ack"
      case SerialConsoleDetachAck => "serial_console_detach_ack"
      case SerialConsoleWriteAck(_) => "serial_console_write_ack"
      case SysResetComponentTriggerAck => "sys_reset_component_trigger_ack"
      case SetIpccKeyLookupValueAck => "set_ipcc_key_lookup_value_ack"
      case OtherResponse(name) => name
    }
  }

  /** The tag of one TLV triple, classified by which catalog constant it
      equals; `OtherTag` is every value equal to none of them. */
  datatype Tag =
    | DeviceDescriptionTag
    | PortStatusTag
    | MeasurementTag
    | IgnitionStateTag
    | LinkEventsTag
    | OtherTag(raw: seq<byte>)

  /** The reasons carried by `CommunicationError::TlvPagination`. */
  datatype PaginationFailure =
    | UnexpectedOffset
    | TotalChanged
    | TooManyItems
    | MoreEntriesThanTotal
    | NoEntriesParsed
    | InventoryLengthMismatch
    | NonUtf8Device
    | NonUtf8Description
    | MeasurementLengthMismatch
    | NonUtf8MeasurementName

  datatype CommError =
    | TlvPagination(reason: PaginationFailure)
    | TlvDeserialize(tag: Tag, code: nat)
    | TlvDecode(code: nat)
    | SpError(error: SpError)
    | BogusSerialConsoleState
    | ExhaustedNumAttempts(attempts: nat)
    | IpccKeyLookupValueTooLarge
    | BadResponseType(expected: string, got: string)
    | SendFailed
    | NoSpDiscovered

  datatype UpdateError = ImageEmpty | Communication(error: CommError)

  /** `expect_*` on a response: the expected kind, or `BadResponseType`. */
  function Expect(response: SpResponse, expected: SpResponse): (r: Result<()>)
    ensures r.Ok? <==> response == expected
    ensures r.Err? ==> r.error == BadResponseType(expected.Name(), response.Name())
  {
    if response == expected then Ok(()) else Err(BadResponseType(expected.Name(), response.Name()))
  }
}
